=== FILE: README.md ===
# nifscp2 store handler, modelled in Dafny

This project models `handle_store`, the C-STORE event handler of the
nifscp2 storage SCP (`scp.py`), which runs once per received DICOM instance.
The handler does the following:

1. It reads the clinical attributes of the instance. A missing required
   attribute raises `KeyError`. It defaults the optional series description
   to `""`, strips every `string.punctuation` character from the optional
   vendor-private coil string (0051,100F), and strips `^` from the patient
   name.
2. It derives four directory names and a file name. Each is
   `"_".join(filter(None, parts))`, so empty parts are dropped, and the file
   name ends in `.dcm`.
3. It creates the four directory levels top-down, ignoring `FileExistsError`,
   and saves the instance there.
4. It forwards the instance to the downstream archive on port 4242. The
   first association requests the default contexts. If that block raises
   `ValueError`, it makes one more association with a fixed list of six
   ultrasound/JPEG presentation contexts.
5. It returns the status `0x0000`.

Modules, one per step of the handler:

- `Common`: `Option`.
- `Strings`: `filter(None, …)` as `NonEmpty`, `sep.join` as `Join`, and
  their composition `JoinNonEmpty`. `Split` is the inverse used to show that
  a joined name determines its parts.
- `Sanitize`: character deletion (`RemoveAll`), the 32-character
  `string.punctuation` table, the coil-string cleaning (as a function, and
  as the source's loop of `str.replace` calls) and the caret strip.
- `Metadata`: attributes, datasets as finite maps, and `Extract`, which
  models the reads with their `KeyError` path.
- `PathResolver`: the storage path and file name.
- `StorageWriter`: the directory tree as a set of paths (lists of
  components below the storage root), `mkdir` with its error cases, the
  four-level `mkdir` sequence, and `save_as` as a map update.
- `Relay`: the two-tier forward. The network library is an oracle that says,
  for each attempt, whether `associate` establishes, does not establish or
  raises, and whether `send_c_store` completes or raises. The relay returns
  the trace of events it caused and the exception that escaped, if any.
- `StoreHandler`: the whole handler.

Two behaviours of the code are easy to misread, and the model follows the
code in both:

- The relay does not absorb every failure, and it does not always release
  its associations. A non-`ValueError` exception in the first block
  escapes the handler, as does any exception in the fallback block, which
  has no `try` around it. A default association whose `send_c_store` raised
  is never released (`Relay.DefaultSendFailureLeaks`).
- `os.path.join` drops empty components. A directory segment that derives
  to `""` (for instance an empty modality) therefore names its parent. When
  that parent exists, its `mkdir` raises `FileExistsError`, which is ignored.
  `StorageWriter.JoinPath` models this by filtering out the empty segments.

## Model

| member | source | states |
|---|---|---|
| `Strings.NonEmpty` | scp.py:64-70 | `filter(None, xs)` keeps exactly the non-empty parts of `xs` (membership in both directions) and never grows the list |
| `Strings.NonEmptyAppend` | scp.py:64-70 | filtering distributes over concatenation, so the kept parts stay in their original order |
| `Strings.JoinNonEmpty` | scp.py:64-70 | `"_".join(filter(None, xs))`: the name is empty exactly when every part is empty; `JoinNonEmptyIgnoresEmpty`, `JoinNonEmptyWellSeparated`, `JoinNonEmptyInjective` and `SplitJoin` state the rest |
| `Strings.JoinNonEmptyAllNonEmpty` | scp.py:64-70 | with every part non-empty the filter keeps all of them, so the name is the plain `_`-join of the parts |
| `Strings.NonEmptyOptionalLast` | scp.py:64-70 | non-empty parts followed by one optional part: the optional part is kept exactly when it is non-empty |
| `Strings.JoinOptionalLastInjective` | scp.py:64-70 | names joined from equally many non-empty, `_`-free parts plus one optional `_`-free part determine all of the parts |
| `Strings.JoinNonEmptyIgnoresEmpty` | scp.py:60-67 | inserting an empty part anywhere leaves the joined name unchanged, so no `_` is produced for it (`4`, not `4_`) |
| `Strings.JoinNonEmptyCons` | scp.py:64-70 | a non-empty first part is followed by `_` and the join of the rest, or stands alone when the rest joins to nothing |
| `Strings.JoinNonEmptyWellSeparated` | scp.py:60-67 | when no part holds `_`, the joined name has no leading, trailing or doubled `_` |
| `Strings.SplitJoin` | scp.py:64-70 | splitting a `c`-join of a non-empty list of `c`-free parts at `c` gives back the parts (an empty list has no inverse: `"".split(c)` is `[""]`) |
| `Strings.JoinNonEmptyInjective` | scp.py:64-70 | for `_`-free parts, equal joined names mean equal non-empty parts |
| `Sanitize.CleanCoil` | scp.py:43-47 | the cleaned coil string holds no ASCII punctuation and no `_`; `CleanCoilContents`, `CleanCoilIdempotent` and `ReplaceEachPunctuation` state the rest |
| `Sanitize.StripCarets` | scp.py:53 | the cleaned patient name holds no `^`, and a name without `^` is kept as it is; `StripCaretsSpec` states the rest |
| `Sanitize.RemoveAll` | scp.py:46-47 | deleting characters: the result holds none of them, is no longer than the input, and keeps the count of every other character |
| `Sanitize.RemoveAllAppend` | scp.py:46-47 | deletion distributes over concatenation, so the surviving characters keep their order |
| `Sanitize.RemoveAllCompose` | scp.py:46-47 | deleting one set of characters and then another is deleting their union at once, which is why the per-character loop is a single deletion |
| `Sanitize.PunctuationTable` | scp.py:46 | the table has 32 distinct characters, and they are exactly the printable ASCII characters that are neither letters, digits nor space |
| `Sanitize.ReplaceEach` | scp.py:46-47 | the loop of `s = s.replace(ch, "")` over a character list computes the deletion of the set of those characters (the proof needs the loop invariant) |
| `Sanitize.ReplaceEachPunctuation` | scp.py:44-47 | the source's loop over `string.punctuation` produces the cleaned coil string |
| `Sanitize.CleanCoilIdempotent` | scp.py:43-47 | cleaning the coil string twice equals cleaning it once |
| `Sanitize.CleanCoilContents` | scp.py:43-47 | only punctuation is deleted: every other character keeps its count |
| `Sanitize.StripCaretsSpec` | scp.py:53 | only `^` is deleted: every other character keeps its count, and stripping twice equals stripping once |
| `Metadata.FirstMissing` | scp.py:32-41 | the first tag in reading order that the dataset lacks. It is absent exactly when every tag is present |
| `Metadata.Extract` | scp.py:32-54 | on success every required attribute is present and each field is its value; the series description defaults to `""`, the coil string is cleaned when present, and `^` is stripped from the name; on failure the reported tag is required and absent |
| `Metadata.ExtractReportsFirstMissing` | scp.py:32-41 | the `KeyError` names the first required attribute, in reading order, that the instance lacks |
| `Metadata.ExtractFound` | scp.py:32-41 | extraction succeeds exactly when every required attribute is present |
| `Metadata.ExtractClean` | scp.py:43-53 | the extracted patient name holds no `^`, and the extracted coil string holds no punctuation and no `_` |
| `Metadata.ExtractOptionalIrrelevant` | scp.py:37-50 | adding or removing the series description or the coil string never changes whether extraction succeeds |
| `PathResolver.Resolve` | scp.py:63-72 | the patient, study and series directory names are empty exactly when all of their parts are, and the file name ends in `.dcm`; `ResolveSeriesAndModality`, `PatientNameLeads`, `ResolveWellSeparated` and `ResolveInjective` state the rest |
| `PathResolver.FileName` | scp.py:67-72 | the file name always ends in `.dcm` |
| `PathResolver.FileNameUniform` | scp.py:67-72 | the two branches on `if coilstring` agree with one four-part join in which an absent coil string counts as `""`, so a coil string that cleans to nothing adds nothing |
| `PathResolver.ResolveSeriesAndModality` | scp.py:37-66 | the modality directory is the modality unchanged. With an empty or absent series description the series directory is the bare series number; with an empty series number it is the bare description; with both non-empty it is `num_desc` |
| `PathResolver.PatientNameLeads` | scp.py:53-67 | a non-empty cleaned patient name is a leading prefix, followed by `_` or by the end of the name, of the patient directory, the study directory and the file name stem alike |
| `PathResolver.ResolveWellSeparated` | scp.py:63-72 | with `_`-free fields, the patient, study and series directory names and the file stem have no leading, trailing or doubled `_` (the modality directory is not joined, so it is not covered) |
| `PathResolver.ResolveInjective` | scp.py:63-72 | with non-empty, `_`-free required fields, the storage path determines every field it was built from. The one exception is that an absent coil string and an empty one look alike |
| `StorageWriter.JoinPath` | scp.py:76-88 | `os.path.join` below the root: the path has no empty component, and segments that are all non-empty are kept as they are |
| `StorageWriter.DirectoryChain` | scp.py:75-90 | the four `mkdir` targets form a chain from the storage root, each the previous one or one level below it, and the last is the series directory; `DirectoryChainPlain` gives them for non-empty segments |
| `StorageWriter.EnsureDirectories` | scp.py:75-90 | the `mkdir` sequence removes nothing; with the root present nothing raises, and without an error all four levels exist; `EnsureDirectoriesCreates`, `EnsureDirectoriesIdempotent` and `EnsureDirectoriesCommute` state the rest |
| `StorageWriter.Mkdir` | scp.py:75-78 | `mkdir` adds the directory when its parent exists, and does nothing when the directory already exists (the ignored `FileExistsError`). Otherwise it raises and changes nothing |
| `StorageWriter.MakeDirs` | scp.py:75-90 | a sequence of `mkdir` calls only ever adds directories, and only the requested ones. Without an error, all of them exist afterwards, and an error names a requested path |
| `StorageWriter.MakeDirsChain` | scp.py:75-90 | a chain of paths, each the previous one or one level below it, hanging from an existing directory is created without error, and exactly its paths are added |
| `StorageWriter.MakeDirsExisting` | scp.py:75-90 | directories that already exist cause no error and no change |
| `StorageWriter.MakeDirsPrefixClosed` | scp.py:75-90 | creating directories keeps every directory's parent present |
| `StorageWriter.EnsureDirectoriesCreates` | scp.py:75-90 | with the storage root present, the four-level sequence raises nothing. It adds exactly the four prefixes, and the series directory exists afterwards |
| `StorageWriter.DirectoryChainPlain` | scp.py:75-90 | with non-empty segments the four levels are exactly `[d0]`, `[d0,d1]`, `[d0,d1,d2]`, `[d0,d1,d2,d3]` |
| `StorageWriter.EnsureDirectoriesIdempotent` | scp.py:75-90 | after a successful run, running the sequence again changes nothing and raises nothing |
| `StorageWriter.EnsureDirectoriesCommute` | scp.py:75-90 | two handlers' directory sequences reach the same tree in either order |
| `StorageWriter.Save` | scp.py:102-104 | saving into an existing directory creates or overwrites that one file and changes nothing else |
| `StorageWriter.FileKeyInSeriesDir` | scp.py:102-103 | the file lies directly in the series directory, the last level created |
| `Relay.FallbackContextsProduct` | scp.py:132-159 | the fallback list is the six pairs {US Multi-frame, US Image} × {JPEG 2000 Lossless, JPEG Baseline, JPEG Lossless} in source order. No pair repeats, and neither does any pair of UIDs |
| `Relay.Attempt` | scp.py:121-126 | one attempt begins with its association request to port 4242, and the exception it raises is exactly the one its block raises according to the oracle (`BlockRaises`); `AttemptShape`, `AttemptCounts` and `AttemptReleases` state the rest |
| `Relay.Forward` | scp.py:120-165 | the relay begins with a default-context association, and the exception that escapes is the fallback block's after a `ValueError` and the default block's otherwise; `ForwardAttempts`, `ForwardDisciplined` and `ForwardReleases` state the rest |
| `Relay.ForwardAttempts` | scp.py:120-165 | there are at most two association attempts, both to the archive host on port 4242. The first requests the default contexts. The fallback contexts are requested exactly when the first block raised `ValueError` |
| `Relay.AttemptShape` | scp.py:121-126 | one attempt starts with its association request and makes no other. The exception it raises is the one from `associate` or, on an established association, from `send_c_store` |
| `Relay.AttemptCounts` | scp.py:121-126 | an attempt makes exactly one association request, sends once exactly when the association was established, and releases once exactly when that send completed |
| `Relay.AttemptDisciplined` | scp.py:121-126 | within one attempt, a send comes only right after an established association, a release only right after a completed send, and an established association is always followed by a send |
| `Relay.ForwardRaises` | scp.py:120-165 | a `ValueError` escapes only from the fallback block; one from the first block is always caught |
| `Relay.ForwardDisciplined` | scp.py:120-165 | a send comes only right after an established association, and a release only right after a completed send. Every completed send is followed by a release, and every established association by a send |
| `Relay.DefaultSendFailureLeaks` | scp.py:120-127 | when the default send raises `ValueError` and the fallback succeeds, the relay returns normally with two associations established and only one released |
| `Relay.ForwardReleases` | scp.py:120-165 | releases never outnumber established associations, and they are equal exactly when no send raised |
| `StoreHandler.Cleaned` | scp.py:54 | the saved dataset carries the cleaned patient name and every other attribute unchanged |
| `StoreHandler.HandleStore` | scp.py:18-170 | every normal return carries `0x0000` (line 170), whatever the relay did; a missing attribute raises `KeyError` with the store untouched and no relay event; no directory is removed; any relay event means this instance, with its cleaned patient name, is the file at its derived path; `StoredThenForwarded` and `MissingAttributeAborts` state the rest |
| `StoreHandler.MissingAttributeAborts` | scp.py:32-41 | a missing required attribute raises `KeyError` naming the first one absent, before any directory, file or relay event |
| `StoreHandler.StoredThenForwarded` | scp.py:75-170 | with the attributes present and the storage root existing, the directories are created and the cleaned instance is saved at its derived path. The relay events are those of the forward, and the handler returns exactly when the relaying block that ran last raised nothing. No file other than the derived one changes |
| `StoreHandler.MkdirFailureAborts` | scp.py:75-120 | a `mkdir` that raises aborts the handler with that directory's error, before `save_as` and the relay: no file changes and no relay event happens |
| `StoreHandler.StorageIndependentOfRelay` | scp.py:102-165 | the stored tree and files do not depend on how the archive behaves |
| `StoreHandler.ExampleWithoutCoil` | scp.py:63-72 | patient `DOE^JOHN`, id `123`, study `20240101` `1200`, series `4` with no description, instance `1`, modality `US` is stored at `US/DOEJOHN_123/DOEJOHN_20240101_1200/4/DOEJOHN_4_1.dcm` |
| `StoreHandler.ExampleWithCoil` | scp.py:67-72 | the same instance with a coil string that does not clean to nothing is named `DOEJOHN_4_1_<cleaned coil>.dcm` |

## Left out

- The association protocol and PDU handling of the network library, the AE
  set-up and the registration of supported and requested contexts
  (scp.py:178-195, 219). The library is the outcome oracle of `Relay`. The
  default requested context list is not enumerated.
- `assoc.release()` raising: the oracle has no outcome for it, so a release
  always completes.
- `dataset.save_as` serialisation and the `file_meta` attachment
  (scp.py:29, 104). A saved file is the dataset as a map, with the cleaned
  patient name written back (scp.py:54).
- The `os.chown` calls (scp.py:93-99, 107-108), including their paths
  relative to the working directory. They are permission side effects.
- Configuration from environment variables, `exit(1)` and debug logging
  (scp.py:199-214), and the `print` diagnostics (scp.py:48, 50).
- `str(...)` rendering of attribute values. The dataset maps each attribute
  to its value already rendered as a string.
- `/` or `..` inside a derived segment, which `os.path.join` would read as
  extra levels, or a segment that is exactly `.` (for instance a patient ID
  of `.` with an empty patient name), which the filesystem resolves to the
  parent, so the source's `mkdir` hits `FileExistsError` and the file lands
  one level up. Each segment is one path component in the model, so a `.`
  segment becomes a directory of its own.
- Concurrent handler invocations and filesystem races. Directory creation is
  sequential. `StorageWriter.EnsureDirectoriesCommute` covers handlers that
  run one after the other.
- StorageWriter.Mkdir: never creates the storage root itself. Paths are
  lists of components below the root, and the root's own parent is outside
  the model. With an empty modality and a missing root, the source's first
  `mkdir` (scp.py:76) creates the root, and the handler goes on to save,
  relay and return `0x0000`. The model raises `FileSystemError([])` there
  instead and saves nothing.
- Filesystem errors other than a missing parent, such as permissions or a
  full disk, which would make `mkdir` or `save_as` raise.

=== FILE: common.dfy ===
/** Small shared datatypes. */
module Common {

  /** A value that may be absent: Python's `None` versus a present value. */
  datatype Option<+T> = None | Some(value: T)
}

=== FILE: metadata.dfy ===
/**
 Reading the clinical attributes of one received instance. A dataset is a
 finite map from attribute to its value rendered as a string (what the
 handler obtains with `str(dataset[...].value)`). Required attributes are
 looked up in the order the handler reads them; the first one absent raises
 `KeyError`, which here is the `Missing` result naming that attribute.
 */
module Metadata {
  import opened Common
  import opened Sanitize

  /** The attributes the handler reads. `CoilString` is the vendor-private
      element (0051,100F), which holds the receive coil name. */
  datatype Tag =
    | InstanceNumber
    | PatientName
    | PatientID
    | StudyDate
    | StudyTime
    | SeriesDescription
    | SeriesNumber
    | Modality
    | CoilString

  /** A received instance: the attributes it carries and their string values. */
  type Dataset = map<Tag, string>

  /** The attributes whose absence aborts the handler, in the order it reads them. */
  const RequiredTags: seq<Tag> :=
    [InstanceNumber, PatientName, PatientID, StudyDate, StudyTime, SeriesNumber, Modality]

  /** The values the path and file name are built from, already cleaned:
      `patientName` has no `^` and `coil`, when present, no punctuation. */
  datatype Info = Info(
    instanceNum: string,
    patientName: string,
    patientId: string,
    studyDate: string,
    studyTime: string,
    seriesDesc: string,
    seriesNum: string,
    modality: string,
    coil: Option<string>)

  datatype Extracted = Found(info: Info) | Missing(tag: Tag)

  /** The first tag of `tags` that `ds` lacks, if any. */
  function FirstMissing(ds: Dataset, tags: seq<Tag>): (r: Option<Tag>)
    ensures r.None? <==> forall i :: 0 <= i < |tags| ==> tags[i] in ds
    ensures r.Some? ==> exists i :: 0 <= i < |tags| && tags[i] == r.value && r.value !in ds
                                    && forall j :: 0 <= j < i ==> tags[j] in ds
  {
    if tags == [] then None
    else if tags[0] !in ds then Some(tags[0])
    else
      var r := FirstMissing(ds, tags[1..]);
      if r.Some? then
        var i :| 0 <= i < |tags[1..]| && tags[1..][i] == r.value && r.value !in ds
                 && forall j :: 0 <= j < i ==> tags[1..][j] in ds;
        assert tags[i + 1] == r.value;
        r
      else r
  }

  /** Lines 32-53 of the handler: read the required attributes (the first
      absent one aborts with `KeyError`), default an absent series description
      to "", read and clean the optional coil string, strip `^` from the
      patient name. */
  function Extract(ds: Dataset): (r: Extracted)
    ensures r.Missing? ==> r.tag in RequiredTags && r.tag !in ds
    ensures r.Found? ==> forall t :: t in RequiredTags ==> t in ds
    ensures r.Found? ==>
      && r.info.instanceNum == ds[InstanceNumber]
      && r.info.patientName == StripCarets(ds[PatientName])
      && r.info.patientId == ds[PatientID]
      && r.info.studyDate == ds[StudyDate]
      && r.info.studyTime == ds[StudyTime]
      && r.info.seriesNum == ds[SeriesNumber]
      && r.info.modality == ds[Modality]
      && r.info.seriesDesc == (if SeriesDescription in ds then ds[SeriesDescription] else "")
      && r.info.coil == (if CoilString in ds then Some(CleanCoil(ds[CoilString])) else None)
  {
    if InstanceNumber !in ds then Missing(InstanceNumber)
    else if PatientName !in ds then Missing(PatientName)
    else if PatientID !in ds then Missing(PatientID)
    else if StudyDate !in ds then Missing(StudyDate)
    else if StudyTime !in ds then Missing(StudyTime)
    else
      var seriesDesc := if SeriesDescription in ds then ds[SeriesDescription] else "";
      if SeriesNumber !in ds then Missing(SeriesNumber)
      else if Modality !in ds then Missing(Modality)
      else
        var coil := if CoilString in ds then Some(CleanCoil(ds[CoilString])) else None;
        Found(Info(
          ds[InstanceNumber],
          StripCarets(ds[PatientName]),
          ds[PatientID],
          ds[StudyDate],
          ds[StudyTime],
          seriesDesc,
          ds[SeriesNumber],
          ds[Modality],
          coil))
  }

  /** A tag absent from `ds` after a prefix of present tags is the first missing one. */
  lemma {:induction false} FirstMissingAt(ds: Dataset, tags: seq<Tag>, i: nat)
    requires i < |tags| && tags[i] !in ds
    requires forall j :: 0 <= j < i ==> tags[j] in ds
    ensures FirstMissing(ds, tags) == Some(tags[i])
  {
    if i > 0 {
      FirstMissingAt(ds, tags[1..], i - 1);
    }
  }

  /** The handler's `KeyError` names the first required attribute, in reading
      order, that the instance lacks. */
  lemma ExtractReportsFirstMissing(ds: Dataset)
    requires Extract(ds).Missing?
    ensures Some(Extract(ds).tag) == FirstMissing(ds, RequiredTags)
  {
    var k :| 0 <= k < |RequiredTags| && RequiredTags[k] == Extract(ds).tag;
    assert forall j :: 0 <= j < k ==> RequiredTags[j] in ds;
    FirstMissingAt(ds, RequiredTags, k);
  }

  /** With every required attribute present, extraction succeeds. */
  lemma ExtractFound(ds: Dataset)
    ensures Extract(ds).Found? <==> forall i :: 0 <= i < |RequiredTags| ==> RequiredTags[i] in ds
  {
    if Extract(ds).Missing? {
      var t := Extract(ds).tag;
      assert t in RequiredTags;
      var k :| 0 <= k < |RequiredTags| && RequiredTags[k] == t;
    }
  }

  /** The extracted values are clean: the patient name holds no `^`, and the
      coil string holds no punctuation, in particular no `_`. */
  lemma ExtractClean(ds: Dataset)
    requires Extract(ds).Found?
    ensures '^' !in Extract(ds).info.patientName
    ensures Extract(ds).info.coil.Some? ==> '_' !in Extract(ds).info.coil.value
    ensures Extract(ds).info.coil.Some? ==>
              forall i :: 0 <= i < |Extract(ds).info.coil.value| ==>
                !IsAsciiPunctuation(Extract(ds).info.coil.value[i])
  {
  }

  /** Only the required attributes decide success: removing or adding the
      series description or the coil string never turns a success into a
      failure or the reverse. */
  lemma ExtractOptionalIrrelevant(ds: Dataset, t: Tag, v: string)
    requires t == SeriesDescription || t == CoilString
    ensures Extract(ds).Found? <==> Extract(ds[t := v]).Found?
    ensures Extract(ds).Found? <==> Extract(ds - {t}).Found?
  {

  }
}

=== FILE: path_resolver.dfy ===
/**
 Deriving the storage location of an instance from its cleaned metadata:
 four directory names (modality, patient, study, series) and a file name,
 each an underscore-join of its fields with the empty ones dropped.
 */
module PathResolver {
  import opened Common
  import opened Strings
  import opened Metadata

  /** The four directory levels below the storage root and the file name. */
  datatype StoragePath = StoragePath(
    modalityDir: string,
    patientDir: string,
    studyDir: string,
    seriesDir: string,
    filename: string)

  const Extension: string := ".dcm"

  /** The coil string as the file name uses it: absent counts as empty. */
  function CoilOrEmpty(coil: Option<string>): string
  {
    if coil.Some? then coil.value else ""
  }

  /** The file name as the source builds it (lines 67-72): three parts, or
      four when the coil string is truthy, then the `.dcm` extension. */
  function FileName(info: Info): (r: string)
    ensures HasSuffix(r, Extension)
  {
    var base :=
      if info.coil.Some? && info.coil.value != "" then
        JoinNonEmpty([info.patientName, info.seriesNum, info.instanceNum, info.coil.value])
      else
        JoinNonEmpty([info.patientName, info.seriesNum, info.instanceNum]);
    assert (base + Extension)[|base|..] == Extension;
    base + Extension
  }

  /** Lines 63-72 of the handler. A directory name comes out empty exactly
      when all of its parts are empty, and the file name ends in `.dcm`. */
  function Resolve(info: Info): (r: StoragePath)
    ensures r.patientDir == "" <==> info.patientName == "" && info.patientId == ""
    ensures r.studyDir == "" <==> info.patientName == "" && info.studyDate == "" && info.studyTime == ""
    ensures r.seriesDir == "" <==> info.seriesNum == "" && info.seriesDesc == ""
    ensures HasSuffix(r.filename, Extension)
  {
    var patientParts := [info.patientName, info.patientId];
    var studyParts := [info.patientName, info.studyDate, info.studyTime];
    var seriesParts := [info.seriesNum, info.seriesDesc];
    assert patientParts[1] == info.patientId;
    assert studyParts[1] == info.studyDate && studyParts[2] == info.studyTime;
    assert seriesParts[1] == info.seriesDesc;
    StoragePath(
      info.modality,
      JoinNonEmpty(patientParts),
      JoinNonEmpty(studyParts),
      JoinNonEmpty(seriesParts),
      FileName(info))
  }

  /** A file name without its `.dcm` extension. */
  function Stem(filename: string): string
    requires HasSuffix(filename, Extension)
  {
    filename[..|filename| - |Extension|]
  }

  /** The directory segments in order from the storage root. */
  function Segments(p: StoragePath): seq<string>
  {
    [p.modalityDir, p.patientDir, p.studyDir, p.seriesDir]
  }

  // ---------------------------------------------------------------------------
  // Properties

  /** The two branches on the coil string agree with one four-part join in
      which an absent coil string counts as empty; so a coil string that
      cleans to nothing adds nothing. */
  lemma FileNameUniform(info: Info)
    ensures FileName(info)
         == JoinNonEmpty([info.patientName, info.seriesNum, info.instanceNum, CoilOrEmpty(info.coil)])
            + Extension
  {
    var xs := [info.patientName, info.seriesNum, info.instanceNum];
    if !(info.coil.Some? && info.coil.value != "") {
      JoinNonEmptyIgnoresEmpty(xs, 3);
      assert xs[..3] + [""] + xs[3..] == xs + [""];
      assert CoilOrEmpty(info.coil) == "";
      assert xs + [""] == [info.patientName, info.seriesNum, info.instanceNum, CoilOrEmpty(info.coil)];
    }
  }

  /** The modality names the top directory unchanged, and an empty or absent
      series description leaves the series directory as the bare series
      number (`4`, not `4_`). */
  lemma ResolveSeriesAndModality(info: Info)
    ensures Resolve(info).modalityDir == info.modality
    ensures info.seriesDesc == "" ==> Resolve(info).seriesDir == info.seriesNum
    ensures info.seriesNum != "" && info.seriesDesc != "" ==>
              Resolve(info).seriesDir == info.seriesNum + "_" + info.seriesDesc
    ensures info.seriesNum == "" ==> Resolve(info).seriesDir == info.seriesDesc
  {
    if info.seriesDesc == "" {
      assert [info.seriesNum, ""] == [info.seriesNum][..1] + [""] + [info.seriesNum][1..];
      JoinNonEmptyIgnoresEmpty([info.seriesNum], 1);
      if info.seriesNum == "" {
        assert [info.seriesNum][1..] == [];
        assert NonEmpty([info.seriesNum]) == [];
      } else {
        NonEmptyOfNonEmpty([info.seriesNum]);
      }
    } else if info.seriesNum != "" {
      JoinNonEmptyCons(info.seriesNum, [info.seriesDesc]);
      NonEmptyOfNonEmpty([info.seriesDesc]);
    } else {
      assert [info.seriesNum, info.seriesDesc] == [""] + [info.seriesDesc];
      NonEmptyOfNonEmpty([info.seriesDesc]);
      assert [info.seriesDesc][1..] == [];
    }
  }

  /** `x` is a leading prefix of `s`, followed by `_` or by the end of `s`. */
  predicate LeadsWith(s: string, x: string)
  {
    HasPrefix(s, x) && (|s| == |x| || s[|x|] == '_')
  }

  /** A non-empty cleaned patient name leads the patient directory, the study
      directory and the file name alike: each starts with it, followed by `_`
      or by the end of the name. */
  lemma PatientNameLeads(info: Info)
    requires info.patientName != ""
    ensures LeadsWith(Resolve(info).patientDir, info.patientName)
    ensures LeadsWith(Resolve(info).studyDir, info.patientName)
    ensures LeadsWith(Stem(FileName(info)), info.patientName)
  {
    var a := info.patientName;
    FirstLeads(a, [info.patientId]);
    assert [a, info.patientId] == [a] + [info.patientId];
    FirstLeads(a, [info.studyDate, info.studyTime]);
    assert [a, info.studyDate, info.studyTime] == [a] + [info.studyDate, info.studyTime];
    FileNameUniform(info);
    var rest := [info.seriesNum, info.instanceNum, CoilOrEmpty(info.coil)];
    FirstLeads(a, rest);
    assert [a, info.seriesNum, info.instanceNum, CoilOrEmpty(info.coil)] == [a] + rest;
    var base := JoinNonEmpty([a] + rest);
    assert FileName(info) == base + Extension;
    assert (base + Extension)[..|base|] == base;
  }

  /** A non-empty first part leads the joined name, followed by `_` or by the end. */
  lemma FirstLeads(a: string, rest: seq<string>)
    requires a != ""
    ensures LeadsWith(JoinNonEmpty([a] + rest), a)
  {
    JoinNonEmptyCons(a, rest);
    var r := JoinNonEmpty(rest);
    if r != "" {
      assert (a + "_" + r)[..|a|] == a;
      assert (a + "_" + r)[|a|] == '_';
    }
  }

  /** Every field the directory and file names are built from is free of `_`. */
  predicate UnderscoreFree(info: Info)
  {
    && '_' !in info.instanceNum
    && '_' !in info.patientName
    && '_' !in info.patientId
    && '_' !in info.studyDate
    && '_' !in info.studyTime
    && '_' !in info.seriesDesc
    && '_' !in info.seriesNum
    && '_' !in CoilOrEmpty(info.coil)
  }

  /** With `_`-free fields, no directory or file name has a leading, trailing
      or doubled underscore, whichever optional fields are empty. */
  lemma ResolveWellSeparated(info: Info)
    requires UnderscoreFree(info)
    ensures WellSeparated(Resolve(info).patientDir)
    ensures WellSeparated(Resolve(info).studyDir)
    ensures WellSeparated(Resolve(info).seriesDir)
    ensures WellSeparated(Stem(Resolve(info).filename))
  {
    FileNameUniform(info);
    var base := JoinNonEmpty([info.patientName, info.seriesNum, info.instanceNum, CoilOrEmpty(info.coil)]);
    assert (base + Extension)[..|base|] == base;
    JoinNonEmptyWellSeparated([info.patientName, info.patientId]);
    JoinNonEmptyWellSeparated([info.patientName, info.studyDate, info.studyTime]);
    JoinNonEmptyWellSeparated([info.seriesNum, info.seriesDesc]);
    JoinNonEmptyWellSeparated([info.patientName, info.seriesNum, info.instanceNum, CoilOrEmpty(info.coil)]);
  }

  /** Collision resistance: when every required field is non-empty and no
      field holds `_`, the storage path determines the metadata it came from,
      up to an absent coil string reading like an empty one. */
  lemma ResolveInjective(a: Info, b: Info)
    requires UnderscoreFree(a) && UnderscoreFree(b)
    requires a.patientName != "" && a.patientId != "" && a.studyDate != "" && a.studyTime != ""
    requires a.seriesNum != "" && a.instanceNum != ""
    requires b.patientName != "" && b.patientId != "" && b.studyDate != "" && b.studyTime != ""
    requires b.seriesNum != "" && b.instanceNum != ""
    requires Resolve(a) == Resolve(b)
    ensures a.modality == b.modality
    ensures a.patientName == b.patientName && a.patientId == b.patientId
    ensures a.studyDate == b.studyDate && a.studyTime == b.studyTime
    ensures a.seriesNum == b.seriesNum && a.seriesDesc == b.seriesDesc
    ensures a.instanceNum == b.instanceNum
    ensures CoilOrEmpty(a.coil) == CoilOrEmpty(b.coil)
  {
    OptionalLastParts([a.patientName], a.patientId, [b.patientName], b.patientId);
    assert [a.patientName, a.studyDate] + [a.studyTime] == [a.patientName, a.studyDate, a.studyTime];
    assert [b.patientName, b.studyDate] + [b.studyTime] == [b.patientName, b.studyDate, b.studyTime];
    OptionalLastParts([a.patientName, a.studyDate], a.studyTime, [b.patientName, b.studyDate], b.studyTime);
    OptionalLastParts([a.seriesNum], a.seriesDesc, [b.seriesNum], b.seriesDesc);
    FileNameUniform(a);
    FileNameUniform(b);
    var fa := [a.patientName, a.seriesNum, a.instanceNum, CoilOrEmpty(a.coil)];
    var fb := [b.patientName, b.seriesNum, b.instanceNum, CoilOrEmpty(b.coil)];
    var ba, bb := JoinNonEmpty(fa), JoinNonEmpty(fb);
    assert ba == (ba + Extension)[..|ba|];
    assert bb == (bb + Extension)[..|bb|];
    assert [a.patientName, a.seriesNum, a.instanceNum] + [CoilOrEmpty(a.coil)] == fa;
    assert [b.patientName, b.seriesNum, b.instanceNum] + [CoilOrEmpty(b.coil)] == fb;
    OptionalLastParts([a.patientName, a.seriesNum, a.instanceNum], CoilOrEmpty(a.coil),
                      [b.patientName, b.seriesNum, b.instanceNum], CoilOrEmpty(b.coil));
  }

  /** `JoinOptionalLastInjective` for parts read off two `Info`s, whose
      fields are `_`-free. */
  lemma OptionalLastParts(xs: seq<string>, z1: string, ys: seq<string>, z2: string)
    requires |xs| == |ys|
    requires forall i :: 0 <= i < |xs| ==> xs[i] != "" && '_' !in xs[i]
    requires forall i :: 0 <= i < |ys| ==> ys[i] != "" && '_' !in ys[i]
    requires '_' !in z1 && '_' !in z2
    requires JoinNonEmpty(xs + [z1]) == JoinNonEmpty(ys + [z2])
    ensures xs == ys && z1 == z2
  {
    assert FreeOf(xs + [z1], '_') by {
      forall i | 0 <= i < |xs + [z1]| ensures '_' !in (xs + [z1])[i] {
        if i < |xs| { assert (xs + [z1])[i] == xs[i]; }
      }
    }
    assert FreeOf(ys + [z2], '_') by {
      forall i | 0 <= i < |ys + [z2]| ensures '_' !in (ys + [z2])[i] {
        if i < |ys| { assert (ys + [z2])[i] == ys[i]; }
      }
    }
    JoinOptionalLastInjective(xs, z1, ys, z2);
  }
}

=== FILE: relay.dfy ===
/**
 Forwarding the received instance to the downstream archive with a C-STORE
 (the Storage Service Class of DICOM PS3.4, using the DIMSE C-STORE service of
 PS3.7 section 9.1.1), first over an association that requests the default
 storage presentation contexts, and once more over an association that
 requests a fixed ultrasound/JPEG list when the first block raised
 `ValueError` (presentation-context negotiation per DICOM PS3.8).

 The network library is an oracle: for each of the two attempts it says
 whether `associate` establishes, does not establish or raises, and whether
 `send_c_store` completes or raises. The relay records what it asks of the
 library as a trace of events.
 */
module Relay {
  import opened Common

  /** The port the downstream archive listens on. */
  const ArchivePort: int := 4242

  /** The SOP classes named in the fallback contexts. */
  datatype AbstractSyntax = UltrasoundMultiframeImageStorage | UltrasoundImageStorage

  /** The compressed transfer syntaxes named in the fallback contexts. */
  datatype TransferSyntax = JPEG2000Lossless | JPEGBaseline | JPEGLossless

  /** One proposed (abstract syntax, transfer syntax) pair: `build_context(a, t)`. */
  datatype PresentationContext = PresentationContext(abstractSyntax: AbstractSyntax, transferSyntax: TransferSyntax)

  function AbstractSyntaxUid(a: AbstractSyntax): string
  {
    match a
    case UltrasoundMultiframeImageStorage => "1.2.840.10008.5.1.4.1.1.3.1"
    case UltrasoundImageStorage => "1.2.840.10008.5.1.4.1.1.6.1"
  }

  function TransferSyntaxUid(t: TransferSyntax): string
  {
    match t
    case JPEG2000Lossless => "1.2.840.10008.1.2.4.90"
    case JPEGBaseline => "1.2.840.10008.1.2.4.50"
    case JPEGLossless => "1.2.840.10008.1.2.4.57"
  }

  /** The contexts of the retry association, in the order the source lists them. */
  const FallbackContexts: seq<PresentationContext> := [
    PresentationContext(UltrasoundMultiframeImageStorage, JPEG2000Lossless),
    PresentationContext(UltrasoundMultiframeImageStorage, JPEGBaseline),
    PresentationContext(UltrasoundMultiframeImageStorage, JPEGLossless),
    PresentationContext(UltrasoundImageStorage, JPEG2000Lossless),
    PresentationContext(UltrasoundImageStorage, JPEGBaseline),
    PresentationContext(UltrasoundImageStorage, JPEGLossless)
  ]

  const FallbackAbstractSyntaxes: seq<AbstractSyntax> :=
    [UltrasoundMultiframeImageStorage, UltrasoundImageStorage]

  const FallbackTransferSyntaxes: seq<TransferSyntax> :=
    [JPEG2000Lossless, JPEGBaseline, JPEGLossless]

  /** The fallback list is the product of the two SOP classes and the three
      transfer syntaxes, abstract syntax major, in source order; no pair and
      no pair of UIDs repeats. */
  lemma FallbackContextsProduct()
    ensures |FallbackContexts| == |FallbackAbstractSyntaxes| * |FallbackTransferSyntaxes| == 6
    ensures forall i :: 0 <= i < 6 ==>
              FallbackContexts[i]
              == PresentationContext(FallbackAbstractSyntaxes[i / 3], FallbackTransferSyntaxes[i % 3])
    ensures forall i, j :: 0 <= i < j < 6 ==> FallbackContexts[i] != FallbackContexts[j]
    ensures forall i, j :: 0 <= i < j < 6 ==>
              (AbstractSyntaxUid(FallbackContexts[i].abstractSyntax),
               TransferSyntaxUid(FallbackContexts[i].transferSyntax))
              != (AbstractSyntaxUid(FallbackContexts[j].abstractSyntax),
                  TransferSyntaxUid(FallbackContexts[j].transferSyntax))
    ensures forall a: AbstractSyntax, t: TransferSyntax :: PresentationContext(a, t) in FallbackContexts
  {
    forall a: AbstractSyntax, t: TransferSyntax
      ensures PresentationContext(a, t) in FallbackContexts
    {
      var i := (if a == UltrasoundMultiframeImageStorage then 0 else 3)
             + (if t == JPEG2000Lossless then 0 else if t == JPEGBaseline then 1 else 2);
      assert FallbackContexts[i] == PresentationContext(a, t);
    }
  }

  /** The contexts an association request proposes: the AE's default
      requested contexts (the library's storage context list, not modelled
      element by element) or an explicit list. */
  datatype ContextRequest = DefaultRequested | Explicit(contexts: seq<PresentationContext>)

  /** Exceptions the relay distinguishes. */
  datatype Exception = ValueError | OtherError

  /** What `ae.associate(...)` does: `is_established` holds or not, or it raises. */
  datatype AssociateOutcome = Established | NotEstablished | AssociateRaises(exc: Exception)

  /** What `assoc.send_c_store(dataset)` does. */
  datatype SendOutcome = Sent | SendRaises(exc: Exception)

  /** The library's behaviour for one association attempt. */
  datatype AttemptOracle = AttemptOracle(associate: AssociateOutcome, send: SendOutcome)

  /** The library's behaviour for the default attempt and the fallback attempt. */
  datatype Peer = Peer(first: AttemptOracle, fallback: AttemptOracle)

  /** What the relay asks of the library, with the library's answer. */
  datatype Event =
    | Associate(host: string, port: int, request: ContextRequest, answer: AssociateOutcome)
    | SendCStore(result: SendOutcome)
    | Release

  /** The events and the exception that escaped, if any. */
  datatype RelayResult = RelayResult(trace: seq<Event>, raised: Option<Exception>)

  /** One attempt: associate; if established, send and then release. An
      exception from `associate` or `send_c_store` ends the attempt there, so
      an association whose send raised is not released. The exception that
      leaves the attempt is the one its block raises. */
  function Attempt(host: string, request: ContextRequest, o: AttemptOracle): (r: RelayResult)
    ensures r.raised == BlockRaises(o)
    ensures 1 <= |r.trace| && r.trace[0] == Associate(host, ArchivePort, request, o.associate)
  {
    var assoc := Associate(host, ArchivePort, request, o.associate);
    match o.associate
    case AssociateRaises(e) => RelayResult([assoc], Some(e))
    case NotEstablished => RelayResult([assoc], None)
    case Established =>
      match o.send
      case Sent => RelayResult([assoc, SendCStore(Sent), Release], None)
      case SendRaises(e) => RelayResult([assoc, SendCStore(o.send)], Some(e))
  }

  /** Lines 120-165 of the handler: the default attempt inside
      `try ... except ValueError`, and the fallback attempt, unguarded, in the
      handler for `ValueError`. The first event always requests the default
      contexts, and the exception that escapes is the fallback block's after
      a `ValueError` and the default block's otherwise. */
  function Forward(host: string, peer: Peer): (r: RelayResult)
    ensures r.raised == if FallsBack(peer) then BlockRaises(peer.fallback) else BlockRaises(peer.first)
    ensures 1 <= |r.trace| && r.trace[0] == Associate(host, ArchivePort, DefaultRequested, peer.first.associate)
  {
    var first := Attempt(host, DefaultRequested, peer.first);
    if first.raised == Some(ValueError) then
      var second := Attempt(host, Explicit(FallbackContexts), peer.fallback);
      RelayResult(first.trace + second.trace, second.raised)
    else first
  }

  // ---------------------------------------------------------------------------
  // Reference descriptions, read off the oracle alone

  /** The exception one attempt's block raises, if any: from `associate`, or
      from `send_c_store` on an established association. */
  function BlockRaises(o: AttemptOracle): Option<Exception>
  {
    if o.associate.AssociateRaises? then Some(o.associate.exc)
    else if o.associate.Established? && o.send.SendRaises? then Some(o.send.exc)
    else None
  }

  /** The fallback attempt happens exactly when the default block raised `ValueError`. */
  predicate FallsBack(peer: Peer)
  {
    BlockRaises(peer.first) == Some(ValueError)
  }

  function CountAssociations(trace: seq<Event>): nat
  {
    if trace == [] then 0
    else (if trace[0].Associate? then 1 else 0) + CountAssociations(trace[1..])
  }

  function CountReleases(trace: seq<Event>): nat
  {
    if trace == [] then 0
    else (if trace[0].Release? then 1 else 0) + CountReleases(trace[1..])
  }

  function CountSends(trace: seq<Event>): nat
  {
    if trace == [] then 0
    else (if trace[0].SendCStore? then 1 else 0) + CountSends(trace[1..])
  }

  function CountEstablished(trace: seq<Event>): nat
  {
    if trace == [] then 0
    else (if trace[0].Associate? && trace[0].answer == Established then 1 else 0)
         + CountEstablished(trace[1..])
  }

  lemma {:induction false} CountsAppend(a: seq<Event>, b: seq<Event>)
    ensures CountAssociations(a + b) == CountAssociations(a) + CountAssociations(b)
    ensures CountReleases(a + b) == CountReleases(a) + CountReleases(b)
    ensures CountEstablished(a + b) == CountEstablished(a) + CountEstablished(b)
  {
    if a == [] {
      assert a + b == b;
    } else {
      assert (a + b)[0] == a[0];
      assert (a + b)[1..] == a[1..] + b;
      CountsAppend(a[1..], b);
    }
  }

  // ---------------------------------------------------------------------------
  // Properties

  /** At most two association attempts; the second, and the only one with the
      fallback contexts, happens exactly when the default block raised
      `ValueError`. Every attempt targets the configured host on port 4242. */
  lemma ForwardAttempts(host: string, peer: Peer)
    ensures CountAssociations(Forward(host, peer).trace) == if FallsBack(peer) then 2 else 1
    ensures Forward(host, peer).trace[0].Associate?
    ensures Forward(host, peer).trace[0].request == DefaultRequested
    ensures FallsBack(peer) <==>
              exists i :: 0 <= i < |Forward(host, peer).trace| && Forward(host, peer).trace[i].Associate?
                          && Forward(host, peer).trace[i].request == Explicit(FallbackContexts)
    ensures forall i :: 0 <= i < |Forward(host, peer).trace| && Forward(host, peer).trace[i].Associate? ==>
              Forward(host, peer).trace[i].host == host && Forward(host, peer).trace[i].port == ArchivePort
  {
    var first := Attempt(host, DefaultRequested, peer.first);
    var r := Forward(host, peer);
    AttemptShape(host, DefaultRequested, peer.first);
    AttemptShape(host, Explicit(FallbackContexts), peer.fallback);
    if FallsBack(peer) {
      var second := Attempt(host, Explicit(FallbackContexts), peer.fallback);
      CountsAppend(first.trace, second.trace);
      assert r.trace[|first.trace|] == second.trace[0];
    } else {
      assert !exists i :: 0 <= i < |r.trace| && r.trace[i].Associate?
                          && r.trace[i].request == Explicit(FallbackContexts);
    }
  }

  /** One attempt's trace: one association request first, sends and releases after. */
  lemma AttemptShape(host: string, request: ContextRequest, o: AttemptOracle)
    ensures var t := Attempt(host, request, o).trace;
      && 1 <= |t| <= 3
      && t[0] == Associate(host, ArchivePort, request, o.associate)
      && (forall i :: 1 <= i < |t| ==> !t[i].Associate?)
      && CountAssociations(t) == 1
      && Attempt(host, request, o).raised == BlockRaises(o)
  {
    AttemptCounts(host, request, o);
  }

  /** The three trace shapes an attempt can leave, counted: one association
      request; one send exactly when the association was established; one
      release exactly when that send completed. */
  lemma AttemptCounts(host: string, request: ContextRequest, o: AttemptOracle)
    ensures var t := Attempt(host, request, o).trace;
      && CountAssociations(t) == 1
      && CountEstablished(t) == (if o.associate.Established? then 1 else 0)
      && CountSends(t) == (if o.associate.Established? then 1 else 0)
      && CountReleases(t) == (if o.associate.Established? && o.send.Sent? then 1 else 0)
  {
    var t := Attempt(host, request, o).trace;
    var assoc := Associate(host, ArchivePort, request, o.associate);
    assert t[0] == assoc;
    if |t| == 1 {
      assert t[1..] == [];
    } else if |t| == 2 {
      var u := [SendCStore(o.send)];
      assert t[1..] == u;
      assert u[1..] == [];
      assert CountAssociations(u) == 0 && CountEstablished(u) == 0 && CountReleases(u) == 0;
      assert CountSends(u) == 1;
    } else {
      var u := [SendCStore(Sent), Release];
      var v := [Release];
      assert t[1..] == u;
      assert u[1..] == v;
      assert v[1..] == [];
      assert CountAssociations(v) == 0 && CountEstablished(v) == 0 && CountReleases(v) == 1;
      assert CountAssociations(u) == 0 && CountEstablished(u) == 0 && CountReleases(u) == 1;
      assert CountSends(v) == 0 && CountSends(u) == 1;
    }
  }

  /** A `ValueError` leaves the relay only from the fallback block: one from
      the default block is always caught. */
  lemma ForwardRaises(host: string, peer: Peer)
    ensures Forward(host, peer).raised == Some(ValueError) ==> FallsBack(peer)
  {
    AttemptShape(host, DefaultRequested, peer.first);
    AttemptShape(host, Explicit(FallbackContexts), peer.fallback);
  }

  /** A trace in which every `SendCStore` comes right after an established
      association, every `Release` right after a completed send, and every
      completed send is followed by `Release`. */
  predicate Disciplined(t: seq<Event>)
  {
    && (forall i :: 0 <= i < |t| && t[i].SendCStore? ==>
          i > 0 && t[i - 1].Associate? && t[i - 1].answer == Established)
    && (forall i :: 0 <= i < |t| && t[i].Release? ==> i > 0 && t[i - 1] == SendCStore(Sent))
    && (forall i :: 0 <= i < |t| && t[i] == SendCStore(Sent) ==> i + 1 < |t| && t[i + 1].Release?)
    && (forall i :: 0 <= i < |t| && t[i].Associate? && t[i].answer == Established ==>
          i + 1 < |t| && t[i + 1].SendCStore?)
  }

  /** One attempt's trace keeps the send/release discipline: it sends only
      over an established association, releases only after a completed send,
      and always sends once established. */
  lemma AttemptDisciplined(host: string, request: ContextRequest, o: AttemptOracle)
    ensures Disciplined(Attempt(host, request, o).trace)
  {
  }

  /** The relay's trace keeps the send/release discipline. */
  lemma ForwardDisciplined(host: string, peer: Peer)
    ensures Disciplined(Forward(host, peer).trace)
  {
    var first := Attempt(host, DefaultRequested, peer.first);
    AttemptDisciplined(host, DefaultRequested, peer.first);
    if FallsBack(peer) {
      var second := Attempt(host, Explicit(FallbackContexts), peer.fallback);
      AttemptDisciplined(host, Explicit(FallbackContexts), peer.fallback);
      AttemptShape(host, Explicit(FallbackContexts), peer.fallback);
      AttemptShape(host, DefaultRequested, peer.first);
      DisciplinedAppend(first.trace, second.trace);
    }
  }

  /** Appending a disciplined trace that starts with an association request
      to a disciplined trace that does not end in a completed send or an
      established association keeps the discipline. */
  lemma DisciplinedAppend(a: seq<Event>, b: seq<Event>)
    requires Disciplined(a) && Disciplined(b)
    requires b != [] && b[0].Associate?
    requires a != [] ==> a[|a| - 1] != SendCStore(Sent)
    requires a != [] ==> !(a[|a| - 1].Associate? && a[|a| - 1].answer == Established)
    ensures Disciplined(a + b)
  {
    var t := a + b;
    forall i | 0 <= i < |t| && t[i].SendCStore?
      ensures i > 0 && t[i - 1].Associate? && t[i - 1].answer == Established
    {
      if i >= |a| {
        assert t[i] == b[i - |a|];
        if i - |a| > 0 {
          assert t[i - 1] == b[i - |a| - 1];
        }
      }
    }
    forall i | 0 <= i < |t| && t[i].Release?
      ensures i > 0 && t[i - 1] == SendCStore(Sent)
    {
      if i >= |a| {
        assert t[i] == b[i - |a|];
        if i - |a| > 0 {
          assert t[i - 1] == b[i - |a| - 1];
        }
      }
    }
    forall i | 0 <= i < |t| && t[i] == SendCStore(Sent)
      ensures i + 1 < |t| && t[i + 1].Release?
    {
      if i >= |a| {
        assert t[i] == b[i - |a|];
        assert t[i + 1] == b[i - |a| + 1];
      }
    }
    forall i | 0 <= i < |t| && t[i].Associate? && t[i].answer == Established
      ensures i + 1 < |t| && t[i + 1].SendCStore?
    {
      if i >= |a| {
        assert t[i] == b[i - |a|];
        assert t[i + 1] == b[i - |a| + 1];
      }
    }
  }

  /** A default association whose send raised `ValueError` is never released,
      even when the fallback then succeeds and the relay returns normally. */
  lemma DefaultSendFailureLeaks(host: string, peer: Peer)
    requires peer.first == AttemptOracle(Established, SendRaises(ValueError))
    requires peer.fallback == AttemptOracle(Established, Sent)
    ensures Forward(host, peer).raised == None
    ensures CountEstablished(Forward(host, peer).trace) == 2
    ensures CountReleases(Forward(host, peer).trace) == 1
  {
    var first := Attempt(host, DefaultRequested, peer.first);
    var second := Attempt(host, Explicit(FallbackContexts), peer.fallback);
    AttemptCounts(host, DefaultRequested, peer.first);
    AttemptCounts(host, Explicit(FallbackContexts), peer.fallback);
    CountsAppend(first.trace, second.trace);
  }

  /** Every established association is released exactly when no send raised. */
  lemma ForwardReleases(host: string, peer: Peer)
    ensures CountReleases(Forward(host, peer).trace) <= CountEstablished(Forward(host, peer).trace)
    ensures CountReleases(Forward(host, peer).trace) == CountEstablished(Forward(host, peer).trace)
        <==> forall i :: 0 <= i < |Forward(host, peer).trace| ==>
               !(Forward(host, peer).trace[i].SendCStore? && Forward(host, peer).trace[i].result.SendRaises?)
  {
    var first := Attempt(host, DefaultRequested, peer.first);
    var r := Forward(host, peer);
    if FallsBack(peer) {
      var second := Attempt(host, Explicit(FallbackContexts), peer.fallback);
      CountsAppend(first.trace, second.trace);
      AttemptReleases(host, DefaultRequested, peer.first);
      AttemptReleases(host, Explicit(FallbackContexts), peer.fallback);
      if CountReleases(r.trace) != CountEstablished(r.trace) {
        if CountReleases(first.trace) != CountEstablished(first.trace) {
          var k :| 0 <= k < |first.trace| && first.trace[k].SendCStore? && first.trace[k].result.SendRaises?;
          assert r.trace[k] == first.trace[k];
        } else {
          var k :| 0 <= k < |second.trace| && second.trace[k].SendCStore? && second.trace[k].result.SendRaises?;
          assert r.trace[|first.trace| + k] == second.trace[k];
        }
      }
    } else {
      AttemptReleases(host, DefaultRequested, peer.first);
    }
  }

  lemma AttemptReleases(host: string, request: ContextRequest, o: AttemptOracle)
    ensures CountReleases(Attempt(host, request, o).trace) <= CountEstablished(Attempt(host, request, o).trace)
    ensures CountReleases(Attempt(host, request, o).trace) == CountEstablished(Attempt(host, request, o).trace)
        <==> forall i :: 0 <= i < |Attempt(host, request, o).trace| ==>
               !(Attempt(host, request, o).trace[i].SendCStore? && Attempt(host, request, o).trace[i].result.SendRaises?)
  {
    var t := Attempt(host, request, o).trace;
    AttemptCounts(host, request, o);
    if o.associate.Established? && o.send.SendRaises? {
      assert t[1].SendCStore? && t[1].result.SendRaises?;
    }
  }
}

=== FILE: sanitize.dfy ===
/**
 Character clean-up applied to metadata before it becomes part of a file
 name: every ASCII punctuation character is deleted from the vendor coil
 string, and every `^` (the DICOM person-name component separator) is
 deleted from the patient name.
 */
module Sanitize {

  /** Python's `string.punctuation`, in the order Python lists it. */
  const Punctuation: string := "!\"#$%&'()*+,-./:;<=>?@[\\]^_`{|}~"

  /** The characters of `s` as a set. */
  function CharSet(s: string): set<char>
  {
    set i | 0 <= i < |s| :: s[i]
  }

  /** The characters of `Punctuation` as a set. */
  const PunctuationSet: set<char> := CharSet(Punctuation)

  /** The ASCII printable characters that are neither letters, digits nor space. */
  predicate IsAsciiPunctuation(c: char)
  {
    ('!' <= c <= '/') || (':' <= c <= '@') || ('[' <= c <= '`') || ('{' <= c <= '~')
  }

  /** `s` with every character of `bad` deleted and the others kept in order. */
  function RemoveAll(s: string, bad: set<char>): (r: string)
    ensures |r| <= |s|
    ensures forall i :: 0 <= i < |r| ==> r[i] !in bad
    ensures forall c :: c !in bad ==> multiset(r)[c] == multiset(s)[c]
  {
    if s == [] then []
    else
      assert s == [s[0]] + s[1..];
      if s[0] in bad then RemoveAll(s[1..], bad)
      else [s[0]] + RemoveAll(s[1..], bad)
  }

  /** The coil string with every punctuation character deleted: no ASCII
      punctuation is left, and in particular no `_`. */
  function CleanCoil(coil: string): (r: string)
    ensures forall i :: 0 <= i < |r| ==> !IsAsciiPunctuation(r[i])
    ensures '_' !in r
  {
    PunctuationTable();
    RemoveAll(coil, PunctuationSet)
  }

  /** The patient name with every `^` deleted: `patient_name.replace("^", "")`.
      A name without `^` is kept as it is. */
  function StripCarets(name: string): (r: string)
    ensures '^' !in r
    ensures '^' !in name ==> r == name
  {
    RemoveAllClean(name, {'^'});
    RemoveAll(name, {'^'})
  }

  // ---------------------------------------------------------------------------
  // The punctuation table

  /** The code point Python's `string.punctuation` has at position `i`: the
      four ASCII runs `!`..`/`, `:`..`@`, `[`..`` ` `` and `{`..`~`. */
  function PunctuationCode(i: int): int
  {
    if i < 15 then 33 + i
    else if i < 22 then 58 + (i - 15)
    else if i < 28 then 91 + (i - 22)
    else 123 + (i - 28)
  }

  lemma PunctuationCodes()
    ensures |Punctuation| == 32
    ensures forall i :: 0 <= i < 32 ==> Punctuation[i] as int == PunctuationCode(i)
  {
  }

  /** `Punctuation` lists the 32 ASCII punctuation characters, each once. */
  lemma PunctuationTable()
    ensures |Punctuation| == 32
    ensures forall i, j :: 0 <= i < j < |Punctuation| ==> Punctuation[i] != Punctuation[j]
    ensures forall c :: c in PunctuationSet <==> IsAsciiPunctuation(c)
  {
    PunctuationCodes();
    forall i, j | 0 <= i < j < |Punctuation|
      ensures Punctuation[i] != Punctuation[j]
    {
      assert PunctuationCode(i) < PunctuationCode(j);
    }
    forall c | IsAsciiPunctuation(c)
      ensures c in PunctuationSet
    {
      var k := c as int;
      var i := if k <= 47 then k - 33 else if k <= 64 then k - 43 else if k <= 96 then k - 69 else k - 95;
      assert PunctuationCode(i) == k;
      assert Punctuation[i] as int == k;
    }
    forall c | c in PunctuationSet
      ensures IsAsciiPunctuation(c)
    {
      var i :| 0 <= i < |Punctuation| && Punctuation[i] == c;
      assert c as int == PunctuationCode(i);
    }
  }

  // ---------------------------------------------------------------------------
  // Deleting characters

  /** Deleting distributes over concatenation: the survivors keep their order. */
  lemma {:induction false} RemoveAllAppend(a: string, b: string, bad: set<char>)
    ensures RemoveAll(a + b, bad) == RemoveAll(a, bad) + RemoveAll(b, bad)
  {
    if a == [] {
      assert a + b == b;
    } else {
      assert (a + b)[0] == a[0];
      assert (a + b)[1..] == a[1..] + b;
      RemoveAllAppend(a[1..], b, bad);
    }
  }

  /** Deleting `a` and then `b` is deleting `a + b` at once. */
  lemma {:induction false} RemoveAllCompose(s: string, a: set<char>, b: set<char>)
    ensures RemoveAll(RemoveAll(s, a), b) == RemoveAll(s, a + b)
  {
    if s != [] {
      RemoveAllCompose(s[1..], a, b);
      if s[0] !in a {
        var t := RemoveAll(s[1..], a);
        assert ([s[0]] + t)[0] == s[0];
        assert ([s[0]] + t)[1..] == t;
      }
    }
  }

  /** A string holding none of `bad` is left as it is. */
  lemma {:induction false} RemoveAllClean(s: string, bad: set<char>)
    ensures (forall i :: 0 <= i < |s| ==> s[i] !in bad) ==> RemoveAll(s, bad) == s
  {
    if s != [] && forall i :: 0 <= i < |s| ==> s[i] !in bad {
      assert forall i :: 0 <= i < |s[1..]| ==> s[1..][i] == s[i + 1];
      RemoveAllClean(s[1..], bad);
      assert s == [s[0]] + s[1..];
    }
  }

  /** Deleting the one bad character between two clean strings. */
  lemma RemoveAllAround(a: string, x: char, b: string, bad: set<char>)
    requires forall i :: 0 <= i < |a| ==> a[i] !in bad
    requires forall i :: 0 <= i < |b| ==> b[i] !in bad
    requires x in bad
    ensures RemoveAll(a + [x] + b, bad) == a + b
  {
    RemoveAllClean(a, bad);
    RemoveAllClean(b, bad);
    assert [x][1..] == [];
    assert RemoveAll([x], bad) == [];
    RemoveAllAppend(a + [x], b, bad);
    RemoveAllAppend(a, [x], bad);
    assert a + [] == a;
  }

  /** Cleaning the coil string twice is cleaning it once. */
  lemma CleanCoilIdempotent(coil: string)
    ensures CleanCoil(CleanCoil(coil)) == CleanCoil(coil)
  {
    RemoveAllCompose(coil, PunctuationSet, PunctuationSet);
    assert PunctuationSet + PunctuationSet == PunctuationSet;
  }

  /** Cleaning the coil string deletes only punctuation: every other
      character survives as often as it occurred. */
  lemma CleanCoilContents(coil: string)
    ensures forall c :: !IsAsciiPunctuation(c) ==> multiset(CleanCoil(coil))[c] == multiset(coil)[c]
  {
    PunctuationTable();
  }

  /** The characters among the first `n` of `chars`, as a set. */
  ghost function CharsBefore(chars: string, n: nat): set<char>
    requires n <= |chars|
  {
    set j | 0 <= j < n :: chars[j]
  }

  lemma CharsBeforeStep(chars: string, n: nat)
    requires n < |chars|
    ensures CharsBefore(chars, n) + {chars[n]} == CharsBefore(chars, n + 1)
  {
  }

  lemma CharsBeforeAll(chars: string)
    ensures CharsBefore(chars, |chars|) == CharSet(chars)
  {
  }

  /** `for ch in chars: s = s.replace(ch, "")`: deleting the characters of
      `chars` one at a time is deleting all of them in one pass. */
  method ReplaceEach(s: string, chars: string) returns (r: string)
    ensures r == RemoveAll(s, CharSet(chars))
  {
    r := s;
    var i := 0;
    RemoveAllClean(s, {});
    assert CharsBefore(chars, 0) == {};
    while i < |chars|
      invariant 0 <= i <= |chars|
      invariant r == RemoveAll(s, CharsBefore(chars, i))
    {
      RemoveAllCompose(s, CharsBefore(chars, i), {chars[i]});
      CharsBeforeStep(chars, i);
      r := RemoveAll(r, {chars[i]});
      i := i + 1;
    }
    CharsBeforeAll(chars);
  }

  /** The source cleans the coil string by running `ReplaceEach` over
      `string.punctuation`; the result is the single-pass deletion `CleanCoil`. */
  method ReplaceEachPunctuation(coil: string) returns (r: string)
    ensures r == CleanCoil(coil)
  {
    r := ReplaceEach(coil, Punctuation);
  }

  /** Stripping carets deletes only `^`: every other character survives as
      often as it occurred, and stripping twice is stripping once. */
  lemma StripCaretsSpec(name: string)
    ensures forall c :: c != '^' ==> multiset(StripCarets(name))[c] == multiset(name)[c]
    ensures StripCarets(StripCarets(name)) == StripCarets(name)
  {
    RemoveAllCompose(name, {'^'}, {'^'});
    assert {'^'} + {'^'} == {'^'};
  }
}

=== FILE: storage_writer.dfy ===
/**
 The local store: the directory tree below the storage root, modelled as the
 set of directories that exist (each a list of path components; `[]` is the
 root itself), and the files written into it.

 `os.path.join(DATADIR, s0, ..., sk)` drops empty components, so a directory
 segment that derives to "" names its parent. When that parent exists, its
 `mkdir` raises `FileExistsError`, which is ignored like any other existing
 directory.
 */
module StorageWriter {
  import opened Common
  import opened Strings
  import opened Metadata
  import opened PathResolver

  type Path = seq<string>

  /** The directory one level up. */
  function Parent(p: Path): Path
    requires p != []
  {
    p[..|p| - 1]
  }

  /** `os.path.join(DATADIR, *segments)` as a path below the root: empty
      segments add no level, and non-empty ones are kept as they are. */
  function JoinPath(segments: seq<string>): (r: Path)
    ensures forall i :: 0 <= i < |r| ==> r[i] != ""
    ensures (forall i :: 0 <= i < |segments| ==> segments[i] != "") ==> r == segments
  {
    NonEmptyOfNonEmpty(segments);
    NonEmpty(segments)
  }

  /** Every existing directory's parent exists too. */
  predicate PrefixClosed(dirs: set<Path>)
  {
    forall p :: p in dirs && p != [] ==> Parent(p) in dirs
  }

  /** The directories after one or more `mkdir` calls, and the path whose
      `mkdir` raised (anything but `FileExistsError`), if one did. */
  datatype MkdirOutcome = MkdirOutcome(dirs: set<Path>, failure: Option<Path>)

  /** `try: os.mkdir(p) except FileExistsError: pass`. Creating `p` needs its
      parent; a missing parent raises `FileNotFoundError`, which propagates. */
  function Mkdir(dirs: set<Path>, p: Path): (r: MkdirOutcome)
    ensures r.failure.None? <==> p in dirs || (p != [] && Parent(p) in dirs)
    ensures r.failure.None? ==> r.dirs == dirs + {p}
    ensures r.failure.Some? ==> r.dirs == dirs && r.failure.value == p
  {
    if p in dirs then MkdirOutcome(dirs, None)
    else if p != [] && Parent(p) in dirs then MkdirOutcome(dirs + {p}, None)
    else MkdirOutcome(dirs, Some(p))
  }

  /** The `mkdir` calls of `ps` in order; the first failure stops the rest. */
  function MakeDirs(dirs: set<Path>, ps: seq<Path>): (r: MkdirOutcome)
    ensures dirs <= r.dirs
    ensures forall p :: p in r.dirs ==> p in dirs || p in ps
    ensures r.failure.None? ==> forall i :: 0 <= i < |ps| ==> ps[i] in r.dirs
    ensures r.failure.Some? ==> r.failure.value in ps
    decreases |ps|
  {
    if ps == [] then MkdirOutcome(dirs, None)
    else
      var first := Mkdir(dirs, ps[0]);
      if first.failure.Some? then first
      else
        var rest := MakeDirs(first.dirs, ps[1..]);
        assert forall i :: 1 <= i < |ps| ==> ps[i] == ps[1..][i - 1];
        rest
  }

  /** The four directories the handler creates, top-down (lines 75-90): a
      chain from the storage root in which each is its predecessor or one
      level below it, ending in the series directory. */
  function DirectoryChain(sp: StoragePath): (r: seq<Path>)
    ensures |r| == 4
    ensures ChainFrom([], r)
    ensures r[3] == JoinPath(Segments(sp))
  {
    var segs := Segments(sp);
    assert segs[..0] == [] && segs[..4] == segs;
    assert JoinPath([]) == [];
    GrowsStep(segs, 0);
    GrowsStep(segs, 1);
    GrowsStep(segs, 2);
    GrowsStep(segs, 3);
    ChainOfFour([], JoinPath(segs[..1]), JoinPath(segs[..2]), JoinPath(segs[..3]), JoinPath(segs[..4]));
    [JoinPath(segs[..1]), JoinPath(segs[..2]), JoinPath(segs[..3]), JoinPath(segs[..4])]
  }

  /** Where the instance is saved: `os.path.join(DATADIR, path, filename)`. */
  function FileKey(sp: StoragePath): Path
  {
    JoinPath(Segments(sp)) + [sp.filename]
  }

  /** Lines 75-90: create the four directory levels, ignoring existing ones.
      Nothing is removed; with the storage root present nothing raises, and
      without an error all four levels exist afterwards. */
  function EnsureDirectories(dirs: set<Path>, sp: StoragePath): (r: MkdirOutcome)
    ensures dirs <= r.dirs
    ensures [] in dirs ==> r.failure.None?
    ensures r.failure.None? ==> forall i :: 0 <= i < 4 ==> DirectoryChain(sp)[i] in r.dirs
  {
    MakeDirsChain(dirs, [], DirectoryChain(sp));
    MakeDirs(dirs, DirectoryChain(sp))
  }

  // ---------------------------------------------------------------------------
  // Chains

  /** `p` is `prev` itself or one level below it. */
  predicate Grows(prev: Path, p: Path)
  {
    p == prev || (p != [] && Parent(p) == prev)
  }

  /** Each path of `ps` is its predecessor (starting at `start`) or one level below it. */
  predicate ChainFrom(start: Path, ps: seq<Path>)
    decreases |ps|
  {
    ps == [] || (Grows(start, ps[0]) && ChainFrom(ps[0], ps[1..]))
  }

  /** A chain hanging from an existing directory is created without error,
      and exactly its directories are added. */
  lemma {:induction false} MakeDirsChain(dirs: set<Path>, start: Path, ps: seq<Path>)
    ensures start in dirs && ChainFrom(start, ps) ==>
              && MakeDirs(dirs, ps).failure.None?
              && MakeDirs(dirs, ps).dirs == dirs + set i | 0 <= i < |ps| :: ps[i]
    decreases |ps|
  {
    if ps != [] && start in dirs && ChainFrom(start, ps) {
      var d1 := dirs + {ps[0]};
      MakeDirsChain(d1, ps[0], ps[1..]);
      assert (set i | 0 <= i < |ps| :: ps[i])
          == {ps[0]} + set i | 0 <= i < |ps[1..]| :: ps[1..][i];
    }
  }

  /** Directories that all exist already: no error and nothing changes. */
  lemma {:induction false} MakeDirsExisting(dirs: set<Path>, ps: seq<Path>)
    requires forall i :: 0 <= i < |ps| ==> ps[i] in dirs
    ensures MakeDirs(dirs, ps) == MkdirOutcome(dirs, None)
  {
    if ps != [] {
      MakeDirsExisting(dirs, ps[1..]);
    }
  }

  /** Creating directories keeps the tree prefix-closed. */
  lemma {:induction false} MakeDirsPrefixClosed(dirs: set<Path>, ps: seq<Path>)
    requires PrefixClosed(dirs)
    ensures PrefixClosed(MakeDirs(dirs, ps).dirs)
    decreases |ps|
  {
    if ps != [] {
      var first := Mkdir(dirs, ps[0]);
      if first.failure.None? {
        MakeDirsPrefixClosed(first.dirs, ps[1..]);
      }
    }
  }

  /** Appending one segment to the joined path: an empty one adds nothing. */
  lemma JoinPathSnoc(segs: seq<string>, k: nat)
    requires k < |segs|
    ensures JoinPath(segs[..k + 1]) == JoinPath(segs[..k]) + (if segs[k] == "" then [] else [segs[k]])
  {
    assert segs[..k + 1] == segs[..k] + [segs[k]];
    NonEmptyAppend(segs[..k], [segs[k]]);
    assert [segs[k]][1..] == [];
  }

  /** Each longer prefix of segments joins to the previous path or one level below it. */
  lemma GrowsStep(segs: seq<string>, k: nat)
    requires k < |segs|
    ensures Grows(JoinPath(segs[..k]), JoinPath(segs[..k + 1]))
  {
    JoinPathSnoc(segs, k);
    var prev := JoinPath(segs[..k]);
    if segs[k] != "" {
      assert (prev + [segs[k]])[..|prev|] == prev;
    } else {
      assert prev + [] == prev;
    }
  }

  lemma ChainOfFour(s: Path, a: Path, b: Path, c: Path, d: Path)
    requires Grows(s, a) && Grows(a, b) && Grows(b, c) && Grows(c, d)
    ensures ChainFrom(s, [a, b, c, d])
  {
    assert [d][1..] == [];
    assert ChainFrom(c, [d]);
    assert [c, d][1..] == [d];
    assert ChainFrom(b, [c, d]);
    assert [b, c, d][1..] == [c, d];
    assert ChainFrom(a, [b, c, d]);
    assert [a, b, c, d][1..] == [b, c, d];
  }

  /** After the `mkdir` sequence with an existing root, all four levels exist,
      no other directory was added, and no error escaped. */
  lemma EnsureDirectoriesCreates(dirs: set<Path>, sp: StoragePath)
    requires [] in dirs
    ensures EnsureDirectories(dirs, sp).failure.None?
    ensures EnsureDirectories(dirs, sp).dirs == dirs + set p | p in DirectoryChain(sp)
    ensures JoinPath(Segments(sp)) in EnsureDirectories(dirs, sp).dirs
  {
    var c := DirectoryChain(sp);
    MakeDirsChain(dirs, [], c);
    assert (set i | 0 <= i < |c| :: c[i]) == set p | p in c;
    assert Segments(sp)[..4] == Segments(sp);
    assert c[3] == JoinPath(Segments(sp));
  }

  /** With non-empty segments the four levels are exactly the prefixes
      `[d0]`, `[d0, d1]`, `[d0, d1, d2]`, `[d0, d1, d2, d3]`. */
  lemma DirectoryChainPlain(sp: StoragePath)
    requires sp.modalityDir != "" && sp.patientDir != "" && sp.studyDir != "" && sp.seriesDir != ""
    ensures DirectoryChain(sp)
         == [[sp.modalityDir],
             [sp.modalityDir, sp.patientDir],
             [sp.modalityDir, sp.patientDir, sp.studyDir],
             [sp.modalityDir, sp.patientDir, sp.studyDir, sp.seriesDir]]
  {
    var segs := Segments(sp);
    assert segs[..1] == [sp.modalityDir];
    assert segs[..2] == [sp.modalityDir, sp.patientDir];
    assert segs[..3] == [sp.modalityDir, sp.patientDir, sp.studyDir];
    assert segs[..4] == segs;
    NonEmptyOfNonEmpty(segs[..1]);
    NonEmptyOfNonEmpty(segs[..2]);
    NonEmptyOfNonEmpty(segs[..3]);
    NonEmptyOfNonEmpty(segs[..4]);
  }

  /** Running the `mkdir` sequence again changes nothing and raises nothing. */
  lemma EnsureDirectoriesIdempotent(dirs: set<Path>, sp: StoragePath)
    requires EnsureDirectories(dirs, sp).failure.None?
    ensures EnsureDirectories(EnsureDirectories(dirs, sp).dirs, sp)
         == EnsureDirectories(dirs, sp)
  {
    MakeDirsExisting(EnsureDirectories(dirs, sp).dirs, DirectoryChain(sp));
  }

  /** Two handlers storing into overlapping paths, one after the other, reach
      the same tree in either order. */
  lemma EnsureDirectoriesCommute(dirs: set<Path>, a: StoragePath, b: StoragePath)
    requires [] in dirs
    ensures EnsureDirectories(EnsureDirectories(dirs, a).dirs, b).dirs
         == EnsureDirectories(EnsureDirectories(dirs, b).dirs, a).dirs
  {
    EnsureDirectoriesCreates(dirs, a);
    EnsureDirectoriesCreates(dirs, b);
    EnsureDirectoriesCreates(EnsureDirectories(dirs, a).dirs, b);
    EnsureDirectoriesCreates(EnsureDirectories(dirs, b).dirs, a);
  }

  // ---------------------------------------------------------------------------
  // Files

  /** The storage root's contents: its directories and the files in them. */
  datatype Storage = Storage(dirs: set<Path>, files: map<Path, Dataset>)

  /** `dataset.save_as(path)` into an existing directory: the file is created
      or overwritten, and nothing else changes. */
  function Save(st: Storage, dir: Path, name: string, ds: Dataset): (r: Storage)
    requires dir in st.dirs
    ensures r.dirs == st.dirs
    ensures r.files.Keys == st.files.Keys + {dir + [name]}
    ensures r.files[dir + [name]] == ds
    ensures forall f :: f in st.files && f != dir + [name] ==> r.files[f] == st.files[f]
  {
    Storage(st.dirs, st.files[dir + [name] := ds])
  }

  /** The saved file lies in the series directory the `mkdir` sequence created. */
  lemma FileKeyInSeriesDir(sp: StoragePath)
    requires sp.filename != ""
    ensures FileKey(sp) == JoinPath(Segments(sp) + [sp.filename])
    ensures Parent(FileKey(sp)) == DirectoryChain(sp)[3]
  {
    NonEmptyAppend(Segments(sp), [sp.filename]);
    assert [sp.filename][1..] == [];
    assert Segments(sp)[..4] == Segments(sp);
  }
}

=== FILE: store_handler.dfy ===
/**
 The C-STORE event handler: extract the metadata, derive the storage path,
 create the directories, save the instance, forward it to the archive, and
 return the success status. Exceptions the source lets escape (a missing
 required attribute, a failing `mkdir`, an exception from the relay other
 than a first-attempt `ValueError`) are the `Raised` outcome.
 */
module StoreHandler {
  import opened Common
  import opened Strings
  import opened Sanitize
  import opened Metadata
  import opened PathResolver
  import opened StorageWriter
  import opened Relay

  /** The C-STORE 'Success' status. */
  const Success: int := 0x0000

  /** The exceptions that can leave the handler. */
  datatype Failure =
    | KeyError(tag: Tag)
    | FileSystemError(path: Path)
    | RelayError(exc: Exception)

  datatype Outcome = Returned(status: int) | Raised(failure: Failure)

  /** What one handler invocation leaves behind: its outcome, the store, and
      the relay events it caused. */
  datatype HandlerResult = HandlerResult(outcome: Outcome, storage: Storage, trace: seq<Event>)

  /** The dataset as saved: its patient name replaced by the cleaned one
      (line 54). */
  function Cleaned(ds: Dataset, info: Info): (r: Dataset)
    ensures r.Keys == ds.Keys + {PatientName}
    ensures r[PatientName] == info.patientName
    ensures forall t :: t in ds && t != PatientName ==> r[t] == ds[t]
  {
    ds[PatientName := info.patientName]
  }

  /** `handle_store` (lines 18-170) for an archive at `host`. A normal
      return carries the success status (line 170); a missing attribute leaves
      the store untouched and the archive uncontacted; directories are never
      removed; and the archive is contacted only once this instance, cleaned,
      has been saved at its derived path. */
  function HandleStore(host: string, ds: Dataset, st: Storage, peer: Peer): (r: HandlerResult)
    ensures r.outcome.Returned? ==> r.outcome.status == Success
    ensures Extract(ds).Missing? ==>
              r == HandlerResult(Raised(KeyError(Extract(ds).tag)), st, [])
    ensures st.dirs <= r.storage.dirs
    ensures r.trace != [] ==>
              && Extract(ds).Found?
              && FileKey(Resolve(Extract(ds).info)) in r.storage.files
              && r.storage.files[FileKey(Resolve(Extract(ds).info))] == Cleaned(ds, Extract(ds).info)
  {
    match Extract(ds)
    case Missing(t) => HandlerResult(Raised(KeyError(t)), st, [])
    case Found(info) =>
      var sp := Resolve(info);
      var made := EnsureDirectories(st.dirs, sp);
      if made.failure.Some? then
        HandlerResult(Raised(FileSystemError(made.failure.value)), Storage(made.dirs, st.files), [])
      else
        assert Segments(sp)[..4] == Segments(sp);
        assert DirectoryChain(sp)[3] == JoinPath(Segments(sp));
        var stored := Save(Storage(made.dirs, st.files), JoinPath(Segments(sp)), sp.filename, Cleaned(ds, info));
        var relay := Forward(host, peer);
        var outcome := if relay.raised.Some? then Raised(RelayError(relay.raised.value)) else Returned(Success);
        HandlerResult(outcome, stored, relay.trace)
  }

  // ---------------------------------------------------------------------------
  // Properties

  /** A missing required attribute aborts before any directory, file or relay:
      the store is untouched, no event happens, and the `KeyError` names the
      first absent required attribute in reading order. */
  lemma MissingAttributeAborts(host: string, ds: Dataset, st: Storage, peer: Peer)
    requires exists i :: 0 <= i < |RequiredTags| && RequiredTags[i] !in ds
    ensures HandleStore(host, ds, st, peer).outcome.Raised?
    ensures HandleStore(host, ds, st, peer).outcome.failure.KeyError?
    ensures Some(HandleStore(host, ds, st, peer).outcome.failure.tag) == FirstMissing(ds, RequiredTags)
    ensures HandleStore(host, ds, st, peer).storage == st
    ensures HandleStore(host, ds, st, peer).trace == []
  {
    ExtractFound(ds);
    ExtractReportsFirstMissing(ds);
  }

  /** With the required attributes present and the storage root existing,
      the instance is saved at its derived path and no other file changes,
      the four directory levels exist, and the handler returns exactly when the relay raised nothing;
      the relay's events are those of `Forward`. */
  lemma StoredThenForwarded(host: string, ds: Dataset, st: Storage, peer: Peer)
    requires forall i :: 0 <= i < |RequiredTags| ==> RequiredTags[i] in ds
    requires [] in st.dirs
    ensures var info := Extract(ds).info;
            var r := HandleStore(host, ds, st, peer);
      && r.storage.dirs == st.dirs + set p | p in DirectoryChain(Resolve(info))
      && FileKey(Resolve(info)) in r.storage.files
      && r.storage.files[FileKey(Resolve(info))] == ds[PatientName := StripCarets(ds[PatientName])]
      && r.storage.files == st.files[FileKey(Resolve(info)) := Cleaned(ds, info)]
      && r.trace == Forward(host, peer).trace
      && (r.outcome.Returned? <==> (!FallsBack(peer) && BlockRaises(peer.first).None?)
                                   || (FallsBack(peer) && BlockRaises(peer.fallback).None?))
  {
    ExtractFound(ds);
    var info := Extract(ds).info;
    var sp := Resolve(info);
    EnsureDirectoriesCreates(st.dirs, sp);
    var made := EnsureDirectories(st.dirs, sp);
    var saved := Save(Storage(made.dirs, st.files), JoinPath(Segments(sp)), sp.filename, Cleaned(ds, info));
    assert saved.files == st.files[FileKey(sp) := Cleaned(ds, info)];
    assert HandleStore(host, ds, st, peer).storage == saved;
  }

  /** A failing `mkdir` (lines 75-90) aborts the handler before `save_as`
      (line 104) and before the relay (line 120): the exception names the
      directory that could not be created, no file changes, and no event
      happens. */
  lemma MkdirFailureAborts(host: string, ds: Dataset, st: Storage, peer: Peer)
    ensures Extract(ds).Found? ==>
              var made := EnsureDirectories(st.dirs, Resolve(Extract(ds).info));
              var r := HandleStore(host, ds, st, peer);
              made.failure.Some? ==>
                && r.outcome == Raised(FileSystemError(made.failure.value))
                && r.storage == Storage(made.dirs, st.files)
                && r.trace == []
  {
  }

  /** The store a handler leaves does not depend on the archive's behaviour:
      local persistence happens before, and independently of, the relay. */
  lemma StorageIndependentOfRelay(host: string, ds: Dataset, st: Storage, p1: Peer, p2: Peer)
    ensures HandleStore(host, ds, st, p1).storage == HandleStore(host, ds, st, p2).storage
  {
  }

  /** An example: an ultrasound instance of patient `DOE^JOHN`
      without series description or coil string is stored as
      `US/DOEJOHN_123/DOEJOHN_20240101_1200/4/DOEJOHN_4_1.dcm`. */
  lemma ExampleWithoutCoil(ds: Dataset)
    requires InstanceNumber in ds && ds[InstanceNumber] == "1"
    requires PatientName in ds && ds[PatientName] == "DOE^JOHN"
    requires PatientID in ds && ds[PatientID] == "123"
    requires StudyDate in ds && ds[StudyDate] == "20240101"
    requires StudyTime in ds && ds[StudyTime] == "1200"
    requires SeriesDescription !in ds
    requires SeriesNumber in ds && ds[SeriesNumber] == "4"
    requires Modality in ds && ds[Modality] == "US"
    requires CoilString !in ds
    ensures Extract(ds).Found?
    ensures Resolve(Extract(ds).info)
         == StoragePath("US", "DOEJOHN_123", "DOEJOHN_20240101_1200", "4", "DOEJOHN_4_1.dcm")
  {
    ExampleInfo(ds);
    ExampleResolve(Extract(ds).info);
  }

  /** The same instance with a coil string that does not clean to nothing:
      the cleaned coil string becomes the fourth part of the file name. */
  lemma ExampleWithCoil(ds: Dataset)
    requires InstanceNumber in ds && ds[InstanceNumber] == "1"
    requires PatientName in ds && ds[PatientName] == "DOE^JOHN"
    requires PatientID in ds && ds[PatientID] == "123"
    requires StudyDate in ds && ds[StudyDate] == "20240101"
    requires StudyTime in ds && ds[StudyTime] == "1200"
    requires SeriesDescription !in ds
    requires SeriesNumber in ds && ds[SeriesNumber] == "4"
    requires Modality in ds && ds[Modality] == "US"
    requires CoilString in ds && CleanCoil(ds[CoilString]) != ""
    ensures Extract(ds).Found?
    ensures Resolve(Extract(ds).info).filename
         == "DOEJOHN_4_1_" + CleanCoil(ds[CoilString]) + ".dcm"
  {
    var coil := CleanCoil(ds[CoilString]);
    ExampleInfoWithCoil(ds);
    ExampleFileName(Extract(ds).info, coil);
  }

  lemma ExampleInfoWithCoil(ds: Dataset)
    requires InstanceNumber in ds && ds[InstanceNumber] == "1"
    requires PatientName in ds && ds[PatientName] == "DOE^JOHN"
    requires PatientID in ds && ds[PatientID] == "123"
    requires StudyDate in ds && ds[StudyDate] == "20240101"
    requires StudyTime in ds && ds[StudyTime] == "1200"
    requires SeriesDescription !in ds
    requires SeriesNumber in ds && ds[SeriesNumber] == "4"
    requires Modality in ds && ds[Modality] == "US"
    requires CoilString in ds
    ensures Extract(ds) == Found(Info("1", "DOEJOHN", "123", "20240101", "1200", "", "4", "US",
                                      Some(CleanCoil(ds[CoilString]))))
  {
    ExampleName();
  }

  lemma ExampleFileName(info: Info, coil: string)
    requires coil != ""
    requires info == Info("1", "DOEJOHN", "123", "20240101", "1200", "", "4", "US", Some(coil))
    ensures FileName(info) == "DOEJOHN_4_1_" + coil + ".dcm"
  {
    var parts := ["DOEJOHN", "4", "1", coil];
    JoinNonEmptyAllNonEmpty(parts);
    assert parts[1..] == ["4", "1", coil];
    assert parts[1..][1..] == ["1", coil];
    assert parts[1..][1..][1..] == [coil];
    assert Join("_", [coil]) == coil;
    assert Join("_", ["1", coil]) == "1_" + coil;
    assert Join("_", ["4", "1", coil]) == "4_1_" + coil;
    assert Join("_", parts) == "DOEJOHN_4_1_" + coil;
  }

  lemma ExampleInfo(ds: Dataset)
    requires InstanceNumber in ds && ds[InstanceNumber] == "1"
    requires PatientName in ds && ds[PatientName] == "DOE^JOHN"
    requires PatientID in ds && ds[PatientID] == "123"
    requires StudyDate in ds && ds[StudyDate] == "20240101"
    requires StudyTime in ds && ds[StudyTime] == "1200"
    requires SeriesDescription !in ds
    requires SeriesNumber in ds && ds[SeriesNumber] == "4"
    requires Modality in ds && ds[Modality] == "US"
    requires CoilString !in ds
    ensures Extract(ds) == Found(Info("1", "DOEJOHN", "123", "20240101", "1200", "", "4", "US", None))
  {
    ExampleName();
  }

  lemma ExampleResolve(info: Info)
    requires info == Info("1", "DOEJOHN", "123", "20240101", "1200", "", "4", "US", None)
    ensures Resolve(info)
         == StoragePath("US", "DOEJOHN_123", "DOEJOHN_20240101_1200", "4", "DOEJOHN_4_1.dcm")
  {
    ExampleJoins();
    ResolveSeriesAndModality(info);
    assert FileName(info) == JoinNonEmpty(["DOEJOHN", "4", "1"]) + ".dcm";
  }

  lemma ExampleName()
    ensures StripCarets("DOE^JOHN") == "DOEJOHN"
  {
    assert "DOE^JOHN" == "DOE" + ['^'] + "JOHN";
    assert "DOEJOHN" == "DOE" + "JOHN";
    RemoveAllAround("DOE", '^', "JOHN", {'^'});
  }

  lemma ExampleJoins()
    ensures JoinNonEmpty(["DOEJOHN", "123"]) == "DOEJOHN_123"
    ensures JoinNonEmpty(["DOEJOHN", "20240101", "1200"]) == "DOEJOHN_20240101_1200"
    ensures JoinNonEmpty(["DOEJOHN", "4", "1"]) == "DOEJOHN_4_1"
  {
    ExampleJoinTwo("DOEJOHN", "123");
    ExampleJoinThree("DOEJOHN", "20240101", "1200");
    ExampleJoinThree("DOEJOHN", "4", "1");
  }

  lemma ExampleJoinTwo(a: string, b: string)
    requires a != "" && b != ""
    ensures JoinNonEmpty([a, b]) == a + "_" + b
  {
    JoinNonEmptyAllNonEmpty([a, b]);
    assert [a, b][1..] == [b];
  }

  lemma ExampleJoinThree(a: string, b: string, c: string)
    requires a != "" && b != "" && c != ""
    ensures JoinNonEmpty([a, b, c]) == a + "_" + b + "_" + c
  {
    JoinNonEmptyAllNonEmpty([a, b, c]);
    assert [a, b, c][1..] == [b, c];
    assert [b, c][1..] == [c];
    assert Join("_", [b, c]) == b + "_" + c;
  }
}

=== FILE: strings.dfy ===
/**
 The string plumbing the store handler uses to name directories and files:
 Python's `filter(None, xs)` over strings, `sep.join(xs)`, and their
 composition `"_".join(filter(None, xs))`, here called `JoinNonEmpty`.
 `Split` is the inverse used to state that a joined name still determines
 its parts.
 */
module Strings {

  /** The parts of `xs` that are not the empty string, in their original
      order: Python's `filter(None, xs)` on a list of strings. */
  function NonEmpty(xs: seq<string>): (r: seq<string>)
    ensures |r| <= |xs|
    ensures forall i :: 0 <= i < |r| ==> r[i] != ""
    ensures forall s :: s in r <==> s in xs && s != ""
  {
    if xs == [] then []
    else if xs[0] == "" then NonEmpty(xs[1..])
    else [xs[0]] + NonEmpty(xs[1..])
  }

  /** Python's `sep.join(xs)`: the parts of `xs` with `sep` between neighbours. */
  function Join(sep: string, xs: seq<string>): string
  {
    if |xs| == 0 then ""
    else if |xs| == 1 then xs[0]
    else xs[0] + sep + Join(sep, xs[1..])
  }

  /** `"_".join(filter(None, xs))`, the naming helper of the store handler.
      The name is empty exactly when every part is: an all-empty segment is
      the degenerate empty directory name. */
  function JoinNonEmpty(xs: seq<string>): (r: string)
    ensures r == "" <==> forall i :: 0 <= i < |xs| ==> xs[i] == ""
  {
    NonEmptyIsEmpty(xs);
    JoinStartsWithFirst("_", NonEmpty(xs));
    Join("_", NonEmpty(xs))
  }

  /** Python's `s.split(c)`: the maximal runs of `s` between occurrences of `c`. */
  function Split(s: string, c: char): (r: seq<string>)
    ensures |r| >= 1
    ensures |r| == 1 ==> r[0] == s
  {
    if |s| == 0 then [""]
    else
      var rest := Split(s[1..], c);
      if s[0] == c then [""] + rest
      else [[s[0]] + rest[0]] + rest[1..]
  }

  /** No part of `xs` contains the character `c`. */
  predicate FreeOf(xs: seq<string>, c: char)
  {
    forall i :: 0 <= i < |xs| ==> c !in xs[i]
  }

  /** `s` uses `_` only as a separator: it neither starts nor ends with `_`
      and never holds two `_` in a row. */
  predicate WellSeparated(s: string)
  {
    && (|s| > 0 ==> s[0] != '_' && s[|s| - 1] != '_')
    && forall i :: 0 <= i < |s| - 1 ==> s[i] == '_' ==> s[i + 1] != '_'
  }

  predicate HasPrefix(s: string, p: string)
  {
    |p| <= |s| && s[..|p|] == p
  }

  predicate HasSuffix(s: string, p: string)
  {
    |p| <= |s| && s[|s| - |p|..] == p
  }

  // ---------------------------------------------------------------------------
  // filter(None, ...)

  /** Filtering distributes over concatenation, so it keeps the survivors in order. */
  lemma {:induction false} NonEmptyAppend(a: seq<string>, b: seq<string>)
    ensures NonEmpty(a + b) == NonEmpty(a) + NonEmpty(b)
  {
    if a == [] {
      assert a + b == b;
    } else {
      assert (a + b)[0] == a[0];
      assert (a + b)[1..] == a[1..] + b;
      NonEmptyAppend(a[1..], b);
    }
  }

  /** Filtering keeps a list whose parts are all non-empty as it is. */
  lemma {:induction false} NonEmptyOfNonEmpty(xs: seq<string>)
    ensures (forall i :: 0 <= i < |xs| ==> xs[i] != "") ==> NonEmpty(xs) == xs
  {
    if xs != [] && forall i :: 0 <= i < |xs| ==> xs[i] != "" {
      assert forall i :: 0 <= i < |xs[1..]| ==> xs[1..][i] == xs[i + 1];
      NonEmptyOfNonEmpty(xs[1..]);
      assert xs == [xs[0]] + xs[1..];
    }
  }

  /** Nothing survives the filter exactly when every part is empty. */
  lemma NonEmptyIsEmpty(xs: seq<string>)
    ensures NonEmpty(xs) == [] <==> forall i :: 0 <= i < |xs| ==> xs[i] == ""
  {
    if NonEmpty(xs) == [] {
      forall i | 0 <= i < |xs|
        ensures xs[i] == ""
      {
        assert xs[i] in xs;
      }
    } else {
      assert NonEmpty(xs)[0] in xs;
    }
  }

  // ---------------------------------------------------------------------------
  // "_".join(...)

  /** Joining a non-empty list whose first part is non-empty gives a non-empty string. */
  lemma {:induction false} JoinStartsWithFirst(sep: string, xs: seq<string>)
    ensures |xs| >= 1 ==> HasPrefix(Join(sep, xs), xs[0])
  {
    if |xs| > 1 {
      assert Join(sep, xs) == xs[0] + (sep + Join(sep, xs[1..]));
    }
  }

  /** Joining parts that are all non-empty: the filter keeps every one. */
  lemma JoinNonEmptyAllNonEmpty(xs: seq<string>)
    requires forall i :: 0 <= i < |xs| ==> xs[i] != ""
    ensures JoinNonEmpty(xs) == Join("_", xs)
  {
    NonEmptyOfNonEmpty(xs);
  }

  /** Filtering non-empty parts followed by one optional part: the last part
      is kept exactly when it is non-empty. */
  lemma NonEmptyOptionalLast(xs: seq<string>, z: string)
    requires forall i :: 0 <= i < |xs| ==> xs[i] != ""
    ensures NonEmpty(xs + [z]) == if z == "" then xs else xs + [z]
  {
    NonEmptyAppend(xs, [z]);
    NonEmptyOfNonEmpty(xs);
    assert [z][1..] == [];
  }

  /** Peeling off a non-empty first part: it is followed by `_` and the join of
      the rest, or stands alone when the rest joins to nothing. */
  lemma JoinNonEmptyCons(a: string, rest: seq<string>)
    requires a != ""
    ensures JoinNonEmpty([a] + rest)
         == if JoinNonEmpty(rest) == "" then a else a + "_" + JoinNonEmpty(rest)
  {
    assert ([a] + rest)[1..] == rest;
    NonEmptyIsEmpty(rest);
  }

  /** Inserting an empty part anywhere leaves the joined name unchanged. */
  lemma JoinNonEmptyIgnoresEmpty(xs: seq<string>, i: nat)
    requires i <= |xs|
    ensures JoinNonEmpty(xs[..i] + [""] + xs[i..]) == JoinNonEmpty(xs)
  {
    var pre, post := xs[..i], xs[i..];
    NonEmptyAppend(pre + [""], post);
    NonEmptyAppend(pre, [""]);
    NonEmptyAppend(pre, post);
    assert [""][1..] == [];
    assert NonEmpty([""]) == [];
    assert NonEmpty(pre + [""]) == NonEmpty(pre);
    assert pre + post == xs;
    assert NonEmpty(pre + [""] + post) == NonEmpty(xs);
  }

  /** When the non-empty parts carry no `_`, the joined name uses `_` only as
      a separator: no leading, trailing or doubled underscore. */
  lemma JoinNonEmptyWellSeparated(xs: seq<string>)
    requires FreeOf(xs, '_')
    ensures WellSeparated(JoinNonEmpty(xs))
  {
    var ys := NonEmpty(xs);
    forall i | 0 <= i < |ys|
      ensures '_' !in ys[i]
    {
      assert ys[i] in xs;
      var k :| 0 <= k < |xs| && xs[k] == ys[i];
    }
    JoinWellSeparated(ys);
  }

  lemma {:induction false} JoinWellSeparated(ys: seq<string>)
    requires forall i :: 0 <= i < |ys| ==> ys[i] != "" && '_' !in ys[i]
    ensures WellSeparated(Join("_", ys))
  {
    if |ys| > 1 {
      JoinWellSeparated(ys[1..]);
      JoinStartsWithFirst("_", ys[1..]);
      var b := Join("_", ys[1..]);
      assert b[0] == ys[1][0];
      assert ys[1][0] in ys[1];
      SeparatedConcat(ys[0], b);
    } else if |ys| == 1 {
      var a := ys[0];
      forall i | 0 <= i < |a|
        ensures a[i] != '_'
      {
        assert a[i] in a;
      }
    }
  }

  /** Gluing a non-empty underscore-free word onto a well-separated non-empty
      string with one `_` keeps it well separated. */
  lemma SeparatedConcat(a: string, b: string)
    requires a != "" && '_' !in a
    requires b != "" && b[0] != '_' && WellSeparated(b)
    ensures WellSeparated(a + "_" + b)
  {
    var s := a + "_" + b;
    forall i | 0 <= i < |s| - 1 && s[i] == '_'
      ensures s[i + 1] != '_'
    {
      if i == |a| {
        assert s[i + 1] == b[0];
      } else if i > |a| {
        assert s[i] == b[i - |a| - 1];
        assert s[i + 1] == b[i - |a|];
      }
    }
    assert s[0] == a[0] && a[0] in a;
    assert s[|s| - 1] == b[|b| - 1];
  }

  // ---------------------------------------------------------------------------
  // Split undoes Join

  lemma {:induction false} SplitFree(a: string, c: char)
    requires c !in a
    ensures Split(a, c) == [a]
  {
    if |a| > 0 {
      assert a[0] in a;
      assert c !in a[1..] by {
        forall k | 0 <= k < |a| - 1
          ensures a[1..][k] != c
        {
          assert a[1..][k] == a[k + 1];
          assert a[k + 1] in a;
        }
      }
      SplitFree(a[1..], c);
      assert a == [a[0]] + a[1..];
    }
  }

  lemma {:induction false} SplitFreePrefix(a: string, t: string, c: char)
    requires c !in a
    ensures Split(a + t, c) == [a + Split(t, c)[0]] + Split(t, c)[1..]
  {
    if |a| == 0 {
      var r := Split(t, c);
      assert a + t == t;
      assert a + r[0] == r[0];
      assert [r[0]] + r[1..] == r;
    } else {
      assert a[0] in a;
      assert c !in a[1..] by {
        forall k | 0 <= k < |a| - 1
          ensures a[1..][k] != c
        {
          assert a[1..][k] == a[k + 1];
          assert a[k + 1] in a;
        }
      }
      assert (a + t)[0] == a[0];
      assert (a + t)[1..] == a[1..] + t;
      SplitFreePrefix(a[1..], t, c);
      var r := Split(a[1..] + t, c);
      assert Split(a + t, c) == [[a[0]] + r[0]] + r[1..];
      assert [a[0]] + (a[1..] + Split(t, c)[0]) == a + Split(t, c)[0];
    }
  }

  /** Splitting on the separator recovers the joined parts, provided no part
      contains the separator. */
  lemma {:induction false} SplitJoin(ys: seq<string>, c: char)
    requires |ys| >= 1
    requires FreeOf(ys, c)
    ensures Split(Join([c], ys), c) == ys
  {
    if |ys| == 1 {
      SplitFree(ys[0], c);
    } else {
      var t := Join([c], ys[1..]);
      assert Join([c], ys) == ys[0] + ([c] + t);
      SplitFreePrefix(ys[0], [c] + t, c);
      assert ([c] + t)[0] == c;
      assert ([c] + t)[1..] == t;
      var r := Split([c] + t, c);
      assert r == [""] + Split(t, c);
      assert r[0] == "" && r[1..] == Split(t, c);
      assert ys[0] + "" == ys[0];
      SplitJoin(ys[1..], c);
      assert ys == [ys[0]] + ys[1..];
    }
  }

  /** The underscore-joined name determines its non-empty parts, provided none
      of them contains `_`: two lists that join to the same name agree once
      their empty parts are dropped. */
  lemma JoinNonEmptyInjective(xs: seq<string>, ys: seq<string>)
    requires FreeOf(xs, '_') && FreeOf(ys, '_')
    requires JoinNonEmpty(xs) == JoinNonEmpty(ys)
    ensures NonEmpty(xs) == NonEmpty(ys)
  {
    NonEmptyIsEmpty(xs);
    NonEmptyIsEmpty(ys);
    var a, b := NonEmpty(xs), NonEmpty(ys);
    if a != [] && b != [] {
      FreeOfNonEmpty(xs, '_');
      FreeOfNonEmpty(ys, '_');
      SplitJoin(a, '_');
      SplitJoin(b, '_');
    }
  }

  /** Names joined from the same number of non-empty, `_`-free parts and one
      optional `_`-free last part determine all of them. */
  lemma JoinOptionalLastInjective(xs: seq<string>, z1: string, ys: seq<string>, z2: string)
    requires |xs| == |ys|
    requires forall i :: 0 <= i < |xs| ==> xs[i] != ""
    requires forall i :: 0 <= i < |ys| ==> ys[i] != ""
    requires FreeOf(xs + [z1], '_') && FreeOf(ys + [z2], '_')
    requires JoinNonEmpty(xs + [z1]) == JoinNonEmpty(ys + [z2])
    ensures xs == ys && z1 == z2
  {
    JoinNonEmptyInjective(xs + [z1], ys + [z2]);
    NonEmptyOptionalLast(xs, z1);
    NonEmptyOptionalLast(ys, z2);
    if z1 != "" && z2 != "" {
      assert (xs + [z1])[..|xs|] == xs;
      assert (ys + [z2])[..|ys|] == ys;
      assert (xs + [z1])[|xs|] == z1;
    }
  }

  /** Filtering keeps the parts free of a character if they were. */
  lemma FreeOfNonEmpty(xs: seq<string>, c: char)
    requires FreeOf(xs, c)
    ensures FreeOf(NonEmpty(xs), c)
  {
    var ys := NonEmpty(xs);
    forall i | 0 <= i < |ys|
      ensures c !in ys[i]
    {
      assert ys[i] in xs;
      var k :| 0 <= k < |xs| && xs[k] == ys[i];
    }
  }
}
